=== FILE: README.md ===
# MUOB creators brief service: a Dafny model

This project models the server in `api/server.js`. The server connects
creator briefs to Tally forms and turns form submissions into applications.
Admins review those applications. Applicants log in with their email to see
their own applications.

The three SQLite tables (admins, briefs, applications) are modelled as one
immutable `Schema.Store`. It holds the rows in rowid order and the
AUTOINCREMENT counter of each table. Each route is a pure function from a
store and its request inputs to a new store and a reply. The model covers:

- the CORS origin check and the bearer-token extraction;
- the admin gate;
- admin and user login;
- the forms listing;
- brief creation with the import of the form's existing submissions;
- the brief listing and the brief status update;
- the filtered application listing, the single update and the bulk update;
- the applicant's own listing;
- the Tally webhook;
- the dashboard statistics.

Some behaviour is modelled explicitly:

- **JavaScript semantics.** Truthiness and `||` alias chains decide which
  form field is used. A bound value is converted to text the way a TEXT
  column stores it. The node driver binds a 32-bit integer as an INTEGER,
  stored as its decimal digits, and any wider number as a REAL, stored with
  a trailing `.0`. Booleans become `1`/`0`.
- **SQLite constraints.** NOT NULL is checked before UNIQUE. INSERT OR
  IGNORE also skips a row whose NOT NULL column is missing.
- **AUTOINCREMENT.** The rowid is drawn before the constraints are checked.
  So an INSERT OR IGNORE that skips its row still advances the table's
  counter, and the ids that follow have a gap. A plain INSERT that fails
  leaves the counter alone.
- **Ordering.** `ORDER BY … DESC` uses the BINARY collation and puts NULLs
  last.
- **Affected rows.** The bulk update reports `this.changes`, the number of
  rows its WHERE clause matched.

The invariant `Schema.Valid` says four things:

- ids grow in rowid order and never pass their table's counter;
- usernames are pairwise distinct;
- form ids and submission ids are pairwise distinct;
- every application references an existing brief.

Every state-changing route preserves the invariant.

Oracles and parameters stand in for what the model cannot see:

- bcrypt is an oracle over the stored hash;
- JWT signing is the claims the token carries;
- JWT verification is an oracle `verify`;
- the Tally HTTP client's answers are inputs;
- the current time is a parameter.

## Model

| member | source | states |
|---|---|---|
| `Values.ColumnText` | api/server.js:238-247 | A bound JS value becomes TEXT: strings as themselves, booleans as "1"/"0". A number that fits in 32 bits becomes decimal digits that read back as its magnitude, after a minus exactly when it is negative; a wider number of magnitude below 10^15 becomes the same sign and digits followed by ".0", and only such a number's text contains a point |
| `Values.Int32Boundary` | api/server.js:238-247 | 2147483647 and -2147483648 are stored as integer text; 2147483648 and -2147483649 as REAL text |
| `Values.FalsyExactly` | api/server.js:233-236 | JavaScript truthiness: exactly `undefined`, `null`, `""`, `0` and `false` are falsy |
| `Values.NatTextRoundTrip` | api/server.js:238-247 | The decimal text of a number reads back as that number |
| `Ordering.TextLeTotal` | api/server.js:281 | Any two texts are comparable under the BINARY collation |
| `Ordering.TextLeTransitive` | api/server.js:281 | The BINARY text order is transitive |
| `Ordering.TextLeAntisymmetric` | api/server.js:281 | Two texts that are each at most the other are equal |
| `Ordering.KeyLeTransitive` | api/server.js:335 | The nullable sort-key order, with NULL lowest, is transitive |
| `Ordering.SortDesc` | api/server.js:335 | `ORDER BY … DESC` returns a permutation of its input in which every earlier key is at least every later key, so NULL keys come last |
| `Ordering.SortedPermutationsAgreeOnKeys` | api/server.js:335 | Any two descending orders of the same rows have the same key sequence, so an ordered reply is determined up to ties |
| `Fields.Lookup` | api/server.js:233-236 | An alias chain `a \|\| b \|\| ''` gives the value under the first truthy alias, gives `''` when none is truthy, and gives a truthy value exactly when some alias holds one |
| `Fields.Extract` | api/server.js:233-236 | The column text of a chain is the text of the value under the first truthy alias, and is empty exactly when no alias holds a truthy value |
| `Fields.ExtractForImport` | api/server.js:233-236 | Each of the import's four columns is resolved by its own alias chain: email, Email; instagram, Instagram, Instagram Handle; portfolio, Portfolio, Portfolio Links; proposal, Content Proposal |
| `Fields.ExtractForWebhook` | api/server.js:453-456 | Each of the webhook's four columns is resolved by its own, shorter alias chain, without "Instagram Handle" and "Portfolio Links" |
| `Fields.LookupPrefixStable` | api/server.js:233-236 | Adding aliases at the end never changes a value the shorter chain already found |
| `Fields.WebhookResolvedAgreesWithImport` | api/server.js:452-456 | A field the webhook's chain resolves gets the same value from the import's longer chain |
| `Fields.ImportSeesMoreAliases` | api/server.js:234 | A bag holding only "Instagram Handle" gives the import a handle and the webhook the empty string |
| `Fields.FalsyFallsThrough` | api/server.js:233 | A falsy value under `email` does not hide a non-empty value under `Email` |
| `Http.CorsAllows` | api/server.js:15-31 | A request with no origin or an empty one is allowed; any other origin is allowed exactly when it is one of the four listed origins |
| `Http.CorsAllowsExactly` | api/server.js:15-24 | A request is allowed exactly when its origin is absent, empty, or one of the four origins written out |
| `Http.CorsRefusesLookalikes` | api/server.js:16-21 | A trailing slash or a plain-http variant of the site origin is refused |
| `Http.SplitOnSpace` | api/server.js:133 | `split(' ')` gives at least one piece, and no piece contains a space |
| `Http.SplitJoin` | api/server.js:133 | Splitting on single spaces undoes joining space-free pieces with spaces |
| `Http.JoinSplit` | api/server.js:133 | Joining the pieces of a split gives back the header |
| `Http.BearerToken` | api/server.js:133-137 | A token is found only in a present header, is non-empty and contains no space; a header without a space yields no token |
| `Http.SplitWithoutSpace` | api/server.js:133 | A string without a space splits into itself alone |
| `Http.BearerTokenOfPieces` | api/server.js:133 | The token is exactly the second space-separated piece, whatever the scheme word is |
| `Http.AuthenticateAdmin` | api/server.js:132-146 | The admin gate as written: no token gives 401 "No token provided", a token that does not verify gives 401 "Invalid token", and any token that verifies is admitted, whichever identity it carries; the admitted `adminId` is the token's for an admin token and undefined otherwise |
| `Http.UserTokenPassesAdminGate` | api/server.js:139-142 | A user-login token, which carries an email rather than an admin id, passes the admin gate |
| `Http.AuthenticateAdminOnly` | api/server.js:132-146 | The corrected gate admits a request exactly when its token verifies to admin claims, and then with that admin id |
| `Http.AdminOnlyRefinesGate` | api/server.js:132-146 | The corrected gate agrees with the written one on admin tokens and refuses the user tokens the written one admits |
| `Schema.EmptyStoreValid` | api/server.js:65-100 | The freshly created tables satisfy the invariant |
| `Schema.BriefIdsDistinct` | api/server.js:73-75 | Under the invariant a brief id names at most one brief |
| `Schema.SeedAdmin` | api/server.js:106-109 | The seed leaves an admin with the username in place; it inserts one, with an id above the counter, only when none exists; either way the admins counter advances by one, and a skipped seed changes nothing else |
| `Schema.SeedAdminValid` | api/server.js:108 | The seed preserves the invariant |
| `Schema.SeedAdminIdempotent` | api/server.js:108 | Seeding again, even with another hash, leaves the admins table as it was, so a restart keeps the first hash; only the counter advances |
| `Schema.InsertBrief` | api/server.js:205-215 | A missing form id or title violates NOT NULL; a form id already present violates UNIQUE; otherwise one brief is appended with id `briefSeq + 1`, the given form id, form name, title, location, tier, requirements and dates, status 'live' and the creation time; the brief counter advances by one and nothing else changes |
| `Schema.InsertBriefValid` | api/server.js:73-84 | A successful brief insert preserves the invariant |
| `Schema.InsertApplicationOrIgnore` | api/server.js:225-227 | Every run advances the applications counter by one. A row whose submission id is missing or already stored is skipped and leaves every table as it was; otherwise one row is appended under the advanced counter with status 'submitted'; afterwards the submission id is on file |
| `Schema.InsertApplicationOrIgnoreIdempotent` | api/server.js:459-462 | Inserting the same row a second time leaves every table as the first insert left it; only the counter advances |
| `Schema.StoredSubmissionIgnored` | api/server.js:90 | A second row with the same submission id leaves every table as it was, whatever its other columns say; only the counter advances |
| `Schema.RedeliveryLeavesIdGap` | api/server.js:88-90 | After a submission is inserted twice, the next new submission is stored under the id three past the counter, leaving a gap |
| `Schema.InsertApplicationValid` | api/server.js:87-100 | Inserting an application for an existing brief preserves the invariant |
| `Schema.InsertEachOrIgnore` | api/server.js:223-249 | A prepared INSERT OR IGNORE run once per row advances the counter once per row and keeps every existing application. Each added application is the row of the first batch row carrying a submission id not on file before, under the counter as it stood at that run; every such first row gets its application |
| `Schema.InsertEachOnFile` | api/server.js:224-249 | After the batch, every row's submission id is on file, whether the batch added it or it was stored before |
| `Schema.InsertEachValid` | api/server.js:224-249 | A batch whose rows all name existing briefs preserves the invariant |
| `Schema.CountSubmission` | api/server.js:90 | The number of rows with a submission id is positive exactly when the id is on file |
| `Schema.StoredSubmissionCountedOnce` | api/server.js:90 | Under the invariant a stored submission id appears in exactly one row |
| `Schema.CountWherePermutation` | api/server.js:277 | A COUNT does not depend on the order of the rows |
| `Schema.Join` | api/server.js:313-316 | The inner join yields exactly the picked columns of the application/brief pairs whose ids match and that the WHERE clause keeps |
| `Schema.JoinOneAtMostOne` | api/server.js:315 | With distinct brief ids an application contributes one join row when it meets a brief the WHERE clause keeps, and none otherwise |
| `Schema.JoinOneRowPerApplication` | api/server.js:313-316 | With distinct brief ids the join has exactly one row per application that meets a kept brief, so no pair is listed twice |
| `BriefRoutes.ListForms` | api/server.js:174-197 | A failed request gives 500 "Failed to fetch Tally forms"; a body without `data` throws in the database callback, outside the `try`, and gets no reply (the uncaught exception also ends the process, which is not modelled); otherwise every fetched form is returned in order, flagged as connected exactly when some brief has its form id |
| `BriefRoutes.ImportRow` | api/server.js:231-247 | An imported row belongs to the new brief, keeps the submission's id, `createdAt` and JSON, and takes each column from the import's alias chain |
| `BriefRoutes.ImportSubmissions` | api/server.js:223-251 | The import keeps every existing row and advances the counter once per fetched submission. Each added row belongs to the new brief with status 'submitted' and is the `ImportRow` of the first fetched submission carrying an id not on file before, stored under the counter as it stood at that submission's run; every such first submission gets its row. So repeats within the fetch and ids already on file add nothing |
| `BriefRoutes.ImportRows` | api/server.js:229-247 | The statement runs once per fetched submission, in order, with that submission's `ImportRow` |
| `BriefRoutes.ImportedSubmissionsOnFile` | api/server.js:230-248 | After the import, every fetched submission with an id is on file |
| `BriefRoutes.CreateBrief` | api/server.js:200-272 | Missing fields give 500 and change nothing; a form already connected gives 400 and changes nothing; otherwise the brief insert happens, and the reply carries the brief id, the count of fetched submissions, and a warning exactly when the fetch failed. The admins and the briefs after the call are those of the brief insert. A failed, empty or data-less fetch leaves exactly the brief insert's store. A non-empty fetch leaves that store with the fetched submissions imported under the new brief |
| `BriefRoutes.CreateBriefValid` | api/server.js:200-272 | Brief creation, import included, preserves the invariant |
| `BriefRoutes.CreateBriefImportsSubmissions` | api/server.js:219-257 | After a successful creation, every fetched submission with an id is on file |
| `BriefRoutes.SecondBriefForFormRefused` | api/server.js:210-213 | After a brief is created for a form, a second brief for that form is refused and changes nothing, and the form lists as connected |
| `BriefRoutes.ListBriefs` | api/server.js:275-290 | One row per brief, each with the count of its applications, newest `created_at` first |
| `BriefRoutes.ListBriefsRows` | api/server.js:277-280 | A row is listed exactly when its brief is stored and its count is that brief's number of applications |
| `BriefRoutes.UpdateBriefStatus` | api/server.js:293-306 | Only the status of the brief with that id changes, to the given value or to NULL; the reply is success even when no brief has the id |
| `BriefRoutes.UpdateBriefStatusValid` | api/server.js:297 | The status update preserves the invariant |
| `ApplicationRoutes.ListApplications` | api/server.js:309-343 | Exactly the joined rows that pass every supplied filter are listed, as a permutation of the join, latest `submitted_at` first |
| `ApplicationRoutes.UnfilteredListsEveryApplication` | api/server.js:312-317 | Without filters, every application of a consistent store is listed |
| `ApplicationRoutes.UnfilteredListsEachApplicationOnce` | api/server.js:312-317 | Without filters, a consistent store lists exactly as many rows as it has applications, so each application appears once |
| `ApplicationRoutes.FiltersNarrow` | api/server.js:320-333 | A row listed under a filter is also listed without it, and carries the supplied brief id, status and tier |
| `ApplicationRoutes.UpdateApplication` | api/server.js:346-359 | Only the row with that id changes, in status and feedback only; the reply is success even when no row has the id |
| `ApplicationRoutes.UpdateApplicationUnknownIdIsNoOp` | api/server.js:350 | An id that names no row leaves the store unchanged |
| `ApplicationRoutes.UpdateApplicationValid` | api/server.js:350 | The single update preserves the invariant |
| `ApplicationRoutes.BulkUpdate` | api/server.js:362-376 | A missing id list throws before any query runs; the handler is synchronous, so Express's default error handler answers 500 and the store is unchanged. Otherwise exactly the rows whose id is listed get the status, and nothing else changes; an empty list changes nothing and reports 0; in a consistent store the reported count is the number of distinct listed ids that exist |
| `ApplicationRoutes.BulkCountIsMatchedIds` | api/server.js:373 | The reported count is the number of distinct listed ids that exist: unknown ids add nothing and a repeated id counts once |
| `ApplicationRoutes.BulkCountExample` | api/server.js:373 | Ids [1, 2, 3], where only 1 and 2 exist, report two updated rows |
| `ApplicationRoutes.BulkUpdateValid` | api/server.js:367 | The bulk update preserves the invariant |
| `UserRoutes.FindAdmin` | api/server.js:154 | The lookup finds an admin exactly when one has the username, and returns the first such admin |
| `UserRoutes.AdminLogin` | api/server.js:151-171 | The login succeeds exactly when the first admin with the username has a matching password; the token then carries that admin's id; every failure is 401 "Invalid credentials" |
| `UserRoutes.SeededAdminCanLogIn` | api/server.js:154-169 | After the startup seed adds an admin, whose username no admin had before, that admin logs in with the seeded password |
| `UserRoutes.UserLogin` | api/server.js:381-400 | The login succeeds exactly when some application has exactly that email, and then hands out a token carrying the email; otherwise 404 |
| `UserRoutes.RowsForEmail` | api/server.js:414-420 | The rows listed are exactly the applications with that email, each joined with its brief's title, location and tier, latest first, as a permutation of the join |
| `UserRoutes.UserListingCountsOwnApplications` | api/server.js:414-420 | In a consistent store the listing has as many rows as there are applications with that email |
| `UserRoutes.UserApplications` | api/server.js:403-431 | No token gives 401 "No token provided"; a token that does not verify gives 401 "Invalid token"; otherwise the applications carrying the token's email are listed, as a permutation of the join |
| `UserRoutes.AdminTokenListsNothing` | api/server.js:411-420 | An admin token passes the user listing's check but lists nothing, because it carries no email |
| `UserRoutes.LoginTokenListsOwnApplications` | api/server.js:396 | The token a user login hands out lists at least one application, and only applications with that email |
| `Webhook.FindBriefByForm` | api/server.js:443-450 | A brief is found exactly when the form id is present and some brief has it; the brief found has that form id |
| `Webhook.ReceivedAt` | api/server.js:470 | A missing or empty `createdAt` is replaced by the time of receipt |
| `Webhook.WebhookRow` | api/server.js:451-471 | A webhook row belongs to the form's brief, keeps the event's submission id and JSON, is stamped with `createdAt` or the receipt time, and takes each column from the webhook's alias chain |
| `Webhook.HandleWebhook` | api/server.js:436-484 | Other event types and unknown forms leave the store unchanged; a submission event for a connected form runs the application INSERT OR IGNORE; the reply is always 200 `received`, except that an event without `data` gets no reply (its unhandled rejection can end the process, which is not modelled) |
| `Webhook.NewSubmissionAppendsOneRow` | api/server.js:459-474 | A new submission for a connected form appends exactly one row, under that form's brief, with status 'submitted' |
| `Webhook.RedeliveryIsIgnored` | api/server.js:459-462 | Delivering the same event twice, even at different times, leaves every table as one delivery does; a second actionable delivery only advances the counter |
| `Webhook.StoredSubmissionNotRepeated` | api/server.js:459-462 | An event whose submission id is already on file leaves every table as it was; if it is actionable, only the counter advances |
| `Webhook.ImportThenWebhookAddsNothing` | api/server.js:225-227 | A submission imported when its brief was created is not stored again when its webhook arrives; the tables stay as they were and only the counter advances |
| `Webhook.WebhookValid` | api/server.js:459-474 | The webhook preserves the invariant |
| `Webhook.DeliveredSubmissionStoredOnce` | api/server.js:90 | After delivery, exactly one row carries the submission id |
| `StatsRoute.MatchingRows` | api/server.js:500 | A brief meets as many LEFT JOIN rows as it has applications, each of them one of its own applications |
| `StatsRoute.LeftJoinOne` | api/server.js:499-500 | A brief gives one NULL-extended row when it has no applications, and otherwise one row per application |
| `StatsRoute.LeftJoinKeepsEveryBrief` | api/server.js:499-500 | Every brief occurs in the LEFT JOIN, with or without applications, and an application occurs only next to the brief it references |
| `StatsRoute.QueryStats` | api/server.js:490-500 | The aggregate as written; each status count is at most the total number of applications |
| `StatsRoute.QueryCountsApplications` | api/server.js:495-498 | In a consistent store the query counts every application once, and the pending, accepted and unsuccessful counts are the numbers of applications with those statuses |
| `StatsRoute.QueryCountsBriefs` | api/server.js:492 | In a consistent store `COUNT(DISTINCT b.id)` is the number of briefs |
| `StatsRoute.QueryStatusCountsAreRowCounts` | api/server.js:493-494 | The written live and expired counts each add, for every brief with that status, its number of applications (1 if it has none). Each is never below the number of such briefs, and equals it when no such brief has two applications or more |
| `StatsRoute.LiveBriefCountedPerApplication` | api/server.js:493 | One live brief with two applications reports two live briefs out of one brief |
| `StatsRoute.ExpiredBriefCountedPerApplication` | api/server.js:494 | One expired brief with two applications reports two expired briefs out of one brief |
| `StatsRoute.IntendedStats` | api/server.js:492-500 | The corrected counts: the total is the number of briefs, and in a consistent store the live (expired) count is the number of distinct ids of live (expired) briefs, so each brief counts once and live plus expired never exceeds the total |
| `StatsRoute.IntendedAgreesWhereQueryIsRight` | api/server.js:492-500 | In a consistent store the corrected total agrees with the query's and every application is counted; the corrected live and expired counts never exceed the written ones, and the live count equals it when no live brief has two applications or more |
| `StatsRoute.StatsAsWritten` | api/server.js:489-509 | The route as written: any token that verifies gets the query's aggregate, whichever identity it carries; a missing or unverified token gets 401 |
| `StatsRoute.AdminStats` | api/server.js:489-509 | The corrected route: the statistics are answered exactly when the token verifies to admin claims, otherwise with 401; the total is the number of briefs, and in a consistent store the live and expired counts are the numbers of distinct live and expired brief ids, so live plus expired never exceeds the total |
| `StatsRoute.IntendedCountsEachBriefOnce` | api/server.js:492-500 | On the store where the query reports two live briefs (one live brief with two applications), the corrected counts give a total of 1, live 1 and expired 0; with the brief expired they give expired 1 and live 0 |
| `StatsRoute.CorrectedStatsRefinesWritten` | api/server.js:489-509 | In a consistent store, wherever the corrected route answers the written one answers too, with the same brief total and application counts and live and expired counts at least as large |
| `StatsRoute.UserTokenRefusedByStats` | api/server.js:489 | A user-login token gets the statistics from the route as written and 401 "Invalid token" from the corrected one |
| `StatsRoute.PerBriefCountsEachOnce` | api/server.js:499-500 | When each application's brief occurs exactly once, summing over briefs counts each application once |
| `StatsRoute.IdsWhereCounted` | api/server.js:492 | With distinct ids, counting distinct ids counts briefs |

## Left out

- HTTP plumbing, body parsing, the CORS method and header lists, and the preflight route are not modelled. Each route takes its parsed inputs.
- bcrypt, JWT signing and expiry, and the Tally HTTP client are left out. They are cryptographic or external, so they appear as oracles (`passwordMatches`, `verify`) and as fetched data.
- `bcrypt.compare` with a missing password is left out. It throws inside an async callback, so no reply is sent and the promise rejection goes unhandled.
- What happens to the server after an uncaught throw is left out; the model only says that no reply is sent. When `forms.data` is missing, `ListForms` throws inside the `db.all` callback (api/server.js:187). That is an uncaught exception, and it ends the Node process. When a `SUBMISSION_CREATED` event has no `data`, `HandleWebhook` throws while destructuring in an async handler (api/server.js:440). Express 4 does not catch that rejection, and Node 15 and later end the process on an unhandled rejection. The webhook needs no token, so any client can do this. The missing id list of `BulkUpdate` is different. That handler is synchronous, so Express catches the throw and answers 500.
- Storage failures are not modelled. These are every `err` branch that answers 500 "Database error" or only logs.
- Timestamps are parameters. `CURRENT_TIMESTAMP` and `new Date()` are clocks.
- SQLite type affinity on ids and `DATETIME` columns is not modelled. Ids from paths, query strings and bodies are integers. Text timestamps are compared as text.
- JSON objects and arrays as field values are not modelled. Neither are non-integer numbers.
- `Values.ColumnText` does not promise the text of a number of magnitude 10^15 or more. SQLite renders such a REAL with fifteen significant digits in exponent form, and the model does not reproduce that rendering.
- `JSON.stringify` is not modelled. The stored raw text is an input.
- Ordering between asynchronous callbacks is left out. The webhook replies before its insert runs, and the model shows only the final store.
- The webhook's reply inside the `db.get` callback for an unknown form is left out. It runs after the reply at the end of the handler has been sent, and the model records only that first reply.
- The webhook's `formId` and `submissionId` are modelled as text only. A JSON number there would be stored through TEXT affinity.
- The `/health` route is left out. It has no state.
- The front-end pages are left out. They are outside the server.
- `BriefRoutes.ListBriefs` leaves the order of briefs with equal `created_at` open. That order is not promised.
- `ApplicationRoutes.ListApplications` leaves the order of rows with equal `submitted_at` open. That order is not promised.
- `UserRoutes.RowsForEmail` leaves the order of rows with equal `submitted_at` open. That order is not promised.

## Findings

| source | as written | input that shows it | evidently intended | confidence | as-written member | corrected member |
|---|---|---|---|---|---|---|
| api/server.js:132-146 | `authenticateAdmin` admits any token that verifies, including the `{email}` token user login hands out to anyone who knows an applicant's email | a token from `POST /api/user/login` sent to any admin route | only tokens carrying `adminId` are admitted | high, not executed | `Http.UserTokenPassesAdminGate` | `Http.AdminOnlyRefinesGate` |
| api/server.js:493-494 | `live_briefs` and `expired_briefs` count LEFT JOIN rows, so a brief counts once per application | one live brief with two applications reports `live_briefs = 2` and `total_briefs = 1` | each brief counts once, so `live + expired <= total` | high, not executed | `StatsRoute.LiveBriefCountedPerApplication` | `StatsRoute.AdminStats` |

=== FILE: applications.dfy ===
/** The admin application routes: the filtered listing (an inner join of
    applications with their brief, optional AND-combined filters, newest
    submission first), the single update of status and feedback, and the bulk
    status update that reports how many rows it changed. */
module ApplicationRoutes {
  import opened Values
  import opened Ordering
  import opened Schema
  import opened Replies

  /** The query string `?briefId&status&tier`. A parameter that is absent or
      empty is falsy and adds no condition; `briefId` is the integer SQLite
      compares `a.brief_id` with. */
  datatype Filter = Filter(briefId: Option<int>, status: Option<string>, tier: Option<string>)

  predicate Supplied(p: Option<string>) {
    p.Some? && p.value != ""
  }

  /** The WHERE clause built from the supplied parameters. A NULL column never
      equals a parameter. */
  predicate MatchesFilter(f: Filter, a: Application, b: Brief) {
    && (f.briefId.None? || a.briefId == f.briefId.value)
    && (!Supplied(f.status) || a.status == Some(f.status.value))
    && (!Supplied(f.tier) || b.tier == Some(f.tier.value))
  }

  /** The WHERE clause and the selected columns for one joined pair. */
  function Pick(f: Filter): (Application, Brief) -> Option<ApplicationRow> {
    (a: Application, b: Brief) =>
      if MatchesFilter(f, a, b) then Some(ApplicationRow(a, b.title, b.tier)) else None
  }

  /** A listed row: an application that passes the filter together with its
      brief, and the columns selected. */
  ghost predicate Listed(s: Store, f: Filter, r: ApplicationRow) {
    exists i, j :: 0 <= i < |s.applications| && 0 <= j < |s.briefs| && RowFrom(f, s.applications[i], s.briefs[j], r)
  }

  predicate RowFrom(f: Filter, a: Application, b: Brief, r: ApplicationRow) {
    && b.id == a.briefId
    && MatchesFilter(f, a, b)
    && r == ApplicationRow(a, b.title, b.tier)
  }

  function SubmittedAtKey(r: ApplicationRow): Option<string> {
    r.application.submittedAt
  }

  /** `GET /admin/applications`: exactly the joined rows that pass every
      supplied filter, latest `submitted_at` first (NULLs last). */
  function ListApplications(s: Store, f: Filter): (r: Reply)
    ensures r.status == 200 && r.body.ApplicationList?
    ensures forall row :: row in r.body.applications <==> Listed(s, f, row)
    ensures SortedDesc(r.body.applications, SubmittedAtKey)
    ensures multiset(r.body.applications) == multiset(Join(s.applications, s.briefs, Pick(f)))
  {
    var joined := Join(s.applications, s.briefs, Pick(f));
    var rows := SortDesc(joined, SubmittedAtKey);
    forall row ensures row in rows <==> Listed(s, f, row) {
      assert row in rows <==> row in multiset(rows);
      assert row in joined <==> row in multiset(joined);
      assert row in joined <==> Listed(s, f, row);
    }
    Reply(200, ApplicationList(rows))
  }

  /** Without filters every application of a consistent store is listed, with
      its brief's title and tier. */
  lemma UnfilteredListsEveryApplication(s: Store, i: int)
    requires Valid(s) && 0 <= i < |s.applications|
    ensures exists row :: (row in ListApplications(s, Filter(None, None, None)).body.applications
      && row.application == s.applications[i])
  {
    var a := s.applications[i];
    var j :| 0 <= j < |s.briefs| && s.briefs[j].id == a.briefId;
    var row := ApplicationRow(a, s.briefs[j].title, s.briefs[j].tier);
    assert RowFrom(Filter(None, None, None), s.applications[i], s.briefs[j], row);
  }

  /** Without filters a consistent store lists each application exactly
      once: the listing is as long as the table. */
  lemma UnfilteredListsEachApplicationOnce(s: Store)
    requires Valid(s)
    ensures |ListApplications(s, Filter(None, None, None)).body.applications| == |s.applications|
  {
    var pick := Pick(Filter(None, None, None));
    assert forall i, j :: 0 <= i < j < |s.briefs| ==> s.briefs[i].id != s.briefs[j].id;
    JoinOneRowPerApplication(s.applications, s.briefs, pick);
    forall i | 0 <= i < |s.applications| ensures Joined(s.applications[i], s.briefs, pick) {
      var j :| 0 <= j < |s.briefs| && s.briefs[j].id == s.applications[i].briefId;
      assert pick(s.applications[i], s.briefs[j]).Some?;
    }
    CountWhereAll(s.applications, (a: Application) => Joined(a, s.briefs, pick));
    assert |multiset(ListApplications(s, Filter(None, None, None)).body.applications)| == |multiset(Join(s.applications, s.briefs, pick))|;
  }

  /** Filters narrow: a row listed under a filter is listed without it, and a
      row carries the supplied status. */
  lemma FiltersNarrow(s: Store, f: Filter, row: ApplicationRow)
    requires row in ListApplications(s, f).body.applications
    ensures row in ListApplications(s, Filter(None, None, None)).body.applications
    ensures f.briefId.Some? ==> row.application.briefId == f.briefId.value
    ensures Supplied(f.status) ==> row.application.status == f.status
    ensures Supplied(f.tier) ==> row.tier == f.tier
  {
    assert Listed(s, f, row);
    var i, j :| 0 <= i < |s.applications| && 0 <= j < |s.briefs| && RowFrom(f, s.applications[i], s.briefs[j], row);
    assert RowFrom(Filter(None, None, None), s.applications[i], s.briefs[j], row);
  }

  // ----------------------------------------------------------- single update

  function SetReview(apps: seq<Application>, id: int, status: Option<string>, feedback: Option<string>): (r: seq<Application>)
    ensures |r| == |apps|
    ensures forall i :: 0 <= i < |apps| ==>
      r[i] == (if apps[i].id == id then apps[i].(status := status, adminFeedback := feedback) else apps[i])
    decreases |apps|
  {
    if |apps| == 0 then []
    else
      [if apps[0].id == id then apps[0].(status := status, adminFeedback := feedback) else apps[0]]
        + SetReview(apps[1..], id, status, feedback)
  }

  /** `PUT /admin/application/:id`: sets `status` and `admin_feedback` of the
      row with that id (NULL for a missing body field) and answers success,
      also when no row has the id. */
  function UpdateApplication(s: Store, id: int, status: Option<string>, feedback: Option<string>): (r: (Store, Reply))
    ensures r.1 == Reply(200, Done)
    ensures r.0.admins == s.admins && r.0.briefs == s.briefs
    ensures r.0.briefSeq == s.briefSeq && r.0.applicationSeq == s.applicationSeq
    ensures |r.0.applications| == |s.applications|
    ensures forall i :: 0 <= i < |s.applications| ==>
      r.0.applications[i] ==
        s.applications[i].(status := r.0.applications[i].status, adminFeedback := r.0.applications[i].adminFeedback)
    ensures forall i :: 0 <= i < |s.applications| && s.applications[i].id == id ==>
      r.0.applications[i].status == status && r.0.applications[i].adminFeedback == feedback
    ensures forall i :: 0 <= i < |s.applications| && s.applications[i].id != id ==>
      r.0.applications[i] == s.applications[i]
  {
    (s.(applications := SetReview(s.applications, id, status, feedback)), Reply(200, Done))
  }

  lemma UpdateApplicationUnknownIdIsNoOp(s: Store, id: int, status: Option<string>, feedback: Option<string>)
    requires forall i :: 0 <= i < |s.applications| ==> s.applications[i].id != id
    ensures UpdateApplication(s, id, status, feedback).0 == s
  {
    assert SetReview(s.applications, id, status, feedback) == s.applications;
  }

  lemma UpdateApplicationValid(s: Store, id: int, status: Option<string>, feedback: Option<string>)
    requires Valid(s)
    ensures Valid(UpdateApplication(s, id, status, feedback).0)
  {
    var s' := UpdateApplication(s, id, status, feedback).0;
    assert s' == s.(applications := s'.applications);
    SameKeysValid(s, s'.applications);
  }

  // ------------------------------------------------------------- bulk update

  function SetStatusIn(apps: seq<Application>, ids: seq<int>, status: Option<string>): (r: seq<Application>)
    ensures |r| == |apps|
    ensures forall i :: 0 <= i < |apps| ==>
      r[i] == (if apps[i].id in ids then apps[i].(status := status) else apps[i])
    decreases |apps|
  {
    if |apps| == 0 then []
    else
      [if apps[0].id in ids then apps[0].(status := status) else apps[0]]
        + SetStatusIn(apps[1..], ids, status)
  }

  /** `this.changes` of `UPDATE … WHERE id IN (…)`: the rows the WHERE
      clause selects. */
  function Changes(apps: seq<Application>, ids: seq<int>): nat {
    CountWhere(apps, (a: Application) => a.id in ids)
  }

  /** `POST /admin/applications/bulk-update`: sets the status of every row
      whose id is in the list and reports how many rows that was. A body
      without `applicationIds` throws before any query runs; an empty list is
      not refused and changes nothing. */
  function BulkUpdate(s: Store, ids: Option<seq<int>>, status: Option<string>): (r: (Store, Reply))
    ensures ids.None? ==> r == (s, Reply(500, Uncaught))
    ensures ids.Some? ==> r.1.status == 200 && r.1.body.BulkUpdated?
    ensures ids.Some? ==>
      && r.0.admins == s.admins && r.0.briefs == s.briefs
      && r.0.briefSeq == s.briefSeq && r.0.applicationSeq == s.applicationSeq
      && |r.0.applications| == |s.applications|
      && (forall i :: 0 <= i < |s.applications| ==>
            r.0.applications[i] == s.applications[i].(status := r.0.applications[i].status))
      && (forall i :: 0 <= i < |s.applications| && s.applications[i].id in ids.value ==>
            r.0.applications[i].status == status)
      && (forall i :: 0 <= i < |s.applications| && s.applications[i].id !in ids.value ==>
            r.0.applications[i] == s.applications[i])
    ensures ids.Some? ==> r.1.body.updatedCount <= |s.applications|
    ensures ids.Some? && Valid(s) ==> r.1.body.updatedCount == |MatchedIds(s.applications, ids.value)|
    ensures ids.Some? && ids.value == [] ==> r == (s, Reply(200, BulkUpdated(0)))
  {
    match ids
    case None => (s, Reply(500, Uncaught))
    case Some(list) =>
      var apps := SetStatusIn(s.applications, list, status);
      assert list == [] ==> apps == s.applications;
      CountMatchedWhenValid(s, list);
      (s.(applications := apps), Reply(200, BulkUpdated(Changes(s.applications, list))))
  }

  /** The ids present in the table that the list names. */
  function MatchedIds(apps: seq<Application>, ids: seq<int>): set<int> {
    set a | a in apps && a.id in ids :: a.id
  }

  /** The reported count is the number of distinct listed ids that exist:
      absent ids add nothing and a repeated id counts once. */
  lemma {:induction false} BulkCountIsMatchedIds(apps: seq<Application>, counter: nat, ids: seq<int>)
    requires ApplicationsValid(apps, counter)
    ensures Changes(apps, ids) == |MatchedIds(apps, ids)|
    decreases |apps|
  {
    if |apps| > 0 {
      var n := |apps| - 1;
      var init := apps[..n];
      assert apps == init + [apps[n]];
      assert ApplicationsValid(init, counter);
      BulkCountIsMatchedIds(init, counter, ids);
      CountWhereAppend(init, apps[n], (a: Application) => a.id in ids);
      MatchedIdsOfLast(apps, counter, ids);
    }
  }

  lemma CountMatchedWhenValid(s: Store, ids: seq<int>)
    ensures Valid(s) ==> Changes(s.applications, ids) == |MatchedIds(s.applications, ids)|
  {
    if Valid(s) {
      BulkCountIsMatchedIds(s.applications, s.applicationSeq, ids);
    }
  }

  /** Ids increase along the table, so the last id occurs nowhere before. */
  lemma LastIdIsNew(apps: seq<Application>, counter: nat)
    requires ApplicationsValid(apps, counter) && |apps| > 0
    ensures forall a | a in apps[..|apps| - 1] :: a.id != apps[|apps| - 1].id
  {
    var n := |apps| - 1;
    forall a | a in apps[..n] ensures a.id != apps[n].id {
      var k :| 0 <= k < n && apps[..n][k] == a;
      assert apps[k] == a;
    }
  }

  lemma MatchedIdsOfLast(apps: seq<Application>, counter: nat, ids: seq<int>)
    requires ApplicationsValid(apps, counter) && |apps| > 0
    ensures var n := |apps| - 1;
      |MatchedIds(apps, ids)| == |MatchedIds(apps[..n], ids)| + (if apps[n].id in ids then 1 else 0)
  {
    var n := |apps| - 1;
    var init := apps[..n];
    var last := apps[n];
    assert apps == init + [last];
    var before := MatchedIds(init, ids);
    LastIdIsNew(apps, counter);
    assert last.id !in before;
    if last.id in ids {
      assert MatchedIds(apps, ids) == before + {last.id};
    } else {
      assert MatchedIds(apps, ids) == before;
    }
  }

  /** The example of the route's description: ids [1, 2, 3] where only 1 and 2
      exist report two changed rows. */
  lemma BulkCountExample(s: Store)
    requires Valid(s) && |s.applications| == 2
    requires s.applications[0].id == 1 && s.applications[1].id == 2
    ensures BulkUpdate(s, Some([1, 2, 3]), Some("accepted")).1 == Reply(200, BulkUpdated(2))
  {
    BulkCountIsMatchedIds(s.applications, s.applicationSeq, [1, 2, 3]);
    assert MatchedIds(s.applications, [1, 2, 3]) == {1, 2};
  }

  lemma BulkUpdateValid(s: Store, ids: seq<int>, status: Option<string>)
    requires Valid(s)
    ensures Valid(BulkUpdate(s, Some(ids), status).0)
  {
    var s' := BulkUpdate(s, Some(ids), status).0;
    assert s' == s.(applications := s'.applications);
    SameKeysValid(s, s'.applications);
  }
}

=== FILE: briefs.dfy ===
/** The brief routes: the forms listing with its `isConnected` flag, brief
    creation with the import of the form's existing submissions, the brief
    listing with application counts, and the brief status update. */
module BriefRoutes {
  import opened Values
  import opened Ordering
  import opened Fields
  import opened Tally
  import opened Schema
  import opened Replies

  // ------------------------------------------------------------ forms list

  function AnnotateForms(forms: seq<Form>, briefs: seq<Brief>): (r: seq<FormWithStatus>)
    ensures |r| == |forms|
    ensures forall i :: 0 <= i < |forms| ==>
      r[i].form == forms[i] && (r[i].isConnected <==> HasFormId(briefs, forms[i].id))
    decreases |forms|
  {
    if |forms| == 0 then []
    else [FormWithStatus(forms[0], HasFormId(briefs, forms[0].id))] + AnnotateForms(forms[1..], briefs)
  }

  /** `GET /admin/tally/forms`. A failed request is caught and answered 500.
      A body without a `data` array throws in the `db.all` callback, after the
      handler's `try` has ended, so no reply is sent: the result is `None`. */
  function ListForms(s: Store, fetch: FormsFetch): (r: Option<Reply>)
    ensures fetch.FetchFailed? ==> r == Some(Reply(500, Failure(FailedToFetchForms)))
    ensures r.None? <==> fetch.Fetched? && fetch.data.None?
    ensures fetch.Fetched? && fetch.data.Some? ==>
      var fs := fetch.data.value;
      && r.Some? && r.value.status == 200 && r.value.body.FormList? && |r.value.body.forms| == |fs|
      && forall i :: 0 <= i < |fs| ==>
           r.value.body.forms[i].form == fs[i] &&
           (r.value.body.forms[i].isConnected <==> exists j :: 0 <= j < |s.briefs| && s.briefs[j].tallyFormId == fs[i].id)
  {
    match fetch
    case FetchFailed => Some(Reply(500, Failure(FailedToFetchForms)))
    case Fetched(None) => None
    case Fetched(Some(fs)) => Some(Reply(200, FormList(AnnotateForms(fs, s.briefs))))
  }

  // -------------------------------------------------------- brief creation

  /** The columns the import loop binds for one submission: the extracted
      fields, `submission.createdAt` as is, and the submission's JSON. */
  function ImportRow(briefId: nat, sub: Submission): (row: NewApplication)
    ensures row.briefId == briefId && row.submissionId == sub.id
    ensures row.submittedAt == sub.createdAt && row.rawTallyData == sub.raw
    ensures Resolves(sub.fields, ImportEmail, row.email) && Resolves(sub.fields, ImportInstagram, row.instagram)
    ensures Resolves(sub.fields, ImportPortfolio, row.portfolio) && Resolves(sub.fields, ImportProposal, row.contentProposal)
  {
    var x := ExtractForImport(sub.fields);
    NewApplication(briefId, sub.id, x.email, x.instagram, x.portfolio, x.proposal, sub.createdAt, sub.raw)
  }

  /** The rows the prepared statement is run with, one per fetched
      submission, in order. */
  function ImportRows(briefId: nat, subs: seq<Submission>): (rows: seq<NewApplication>)
    ensures |rows| == |subs|
    ensures forall k :: 0 <= k < |subs| ==> rows[k] == ImportRow(briefId, subs[k])
  {
    seq(|subs|, k requires 0 <= k < |subs| => ImportRow(briefId, subs[k]))
  }

  /** The prepared INSERT OR IGNORE run once per fetched submission, in order.
      Each run advances the counter. The added rows are exactly the
      `ImportRow`s of the first submissions carrying an id not yet on file, so
      repeats within the fetch and ids already stored add nothing. */
  function ImportSubmissions(s: Store, briefId: nat, subs: seq<Submission>): (s': Store)
    ensures s'.admins == s.admins && s'.briefs == s.briefs && s'.briefSeq == s.briefSeq
    ensures s'.applicationSeq == s.applicationSeq + |subs|
    ensures |s.applications| <= |s'.applications| <= |s.applications| + |subs|
    ensures s'.applications[..|s.applications|] == s.applications
    ensures forall i :: |s.applications| <= i < |s'.applications| ==>
      s'.applications[i].briefId == briefId && s'.applications[i].status == Some(SubmittedStatus)
    ensures AddedAreFirstNew(s.applications, s'.applications, ImportRows(briefId, subs), s.applicationSeq)
    ensures FirstNewAreAdded(s.applications, s'.applications, ImportRows(briefId, subs), s.applicationSeq)
  {
    var rows := ImportRows(briefId, subs);
    var s' := InsertEachOrIgnore(s, rows);
    AddedUnderBrief(s.applications, s'.applications, rows, s.applicationSeq, briefId);
    s'
  }

  /** Every fetched submission that has an id is on file after the import,
      whether this import added it or it was stored before. */
  lemma ImportedSubmissionsOnFile(s: Store, briefId: nat, subs: seq<Submission>)
    ensures forall k :: 0 <= k < |subs| && subs[k].id.Some? ==>
      HasSubmission(ImportSubmissions(s, briefId, subs).applications, subs[k].id.value)
  {
    InsertEachOnFile(s, ImportRows(briefId, subs));
  }

  lemma ImportSubmissionsValid(s: Store, briefId: nat, subs: seq<Submission>)
    requires Valid(s) && HasBrief(s.briefs, briefId)
    ensures Valid(ImportSubmissions(s, briefId, subs))
  {
    InsertEachValid(s, ImportRows(briefId, subs));
  }

  /** `POST /admin/briefs`. The brief insert runs first; only when it
      succeeds are the form's submissions fetched (`fetch` is what the
      provider answered) and imported. A failed fetch keeps the brief and
      answers success with a warning. `importedCount` is the number of fetched
      submissions, not the number of rows the import added. */
  function CreateBrief(s: Store, f: BriefFields, now: string, fetch: SubmissionFetch): (r: (Store, Reply))
    ensures f.tallyFormId.None? || f.title.None? ==> r == (s, Reply(500, Failure(FailedToCreateBrief)))
    ensures f.tallyFormId.Some? && f.title.Some? && HasFormId(s.briefs, f.tallyFormId.value) ==>
      r == (s, Reply(400, Failure(AlreadyConnected)))
    ensures r.1.status == 200 <==>
      f.tallyFormId.Some? && f.title.Some? && !HasFormId(s.briefs, f.tallyFormId.value)
    ensures r.1.status == 200 ==>
      var s' := r.0;
      && r.1.body.BriefCreated?
      && |s'.briefs| == |s.briefs| + 1
      && s'.briefs[..|s.briefs|] == s.briefs
      && s'.briefs[|s.briefs|].id == r.1.body.briefId
      && r.1.body.briefId > s.briefSeq
      && s'.briefs[|s.briefs|].status == Some(LiveStatus)
      && Some(s'.briefs[|s.briefs|].tallyFormId) == f.tallyFormId
      && |s'.applications| >= |s.applications|
      && s'.applications[..|s.applications|] == s.applications
      && (r.1.body.warning.Some? <==> fetch.FetchFailed?)
      && r.1.body.importedCount == (if fetch.Fetched? && fetch.data.Some? then |fetch.data.value| else 0)
    ensures r.1.status == 200 ==>
      && r.0.admins == s.admins && r.0.adminSeq == s.adminSeq
      && r.0.briefs == InsertBrief(s, f, now).store.briefs
      && r.0.briefSeq == s.briefSeq + 1
    ensures r.1.status == 200 && (fetch.FetchFailed? || fetch.data.None? || |fetch.data.value| == 0) ==>
      r.0 == InsertBrief(s, f, now).store
    ensures r.1.status == 200 && fetch.Fetched? && fetch.data.Some? && |fetch.data.value| > 0 ==>
      r.0 == ImportSubmissions(InsertBrief(s, f, now).store, r.1.body.briefId, fetch.data.value)
  {
    match InsertBrief(s, f, now)
    case NotNullViolation => (s, Reply(500, Failure(FailedToCreateBrief)))
    case UniqueViolation => (s, Reply(400, Failure(AlreadyConnected)))
    case BriefInserted(s1, briefId) =>
      match fetch
      case FetchFailed => (s1, Reply(200, BriefCreated(briefId, 0, Some(ImportWarning))))
      case Fetched(data) =>
        var s2 := if data.Some? && |data.value| > 0 then ImportSubmissions(s1, briefId, data.value) else s1;
        (s2, Reply(200, BriefCreated(briefId, if data.Some? then |data.value| else 0, None)))
  }

  lemma CreateBriefValid(s: Store, f: BriefFields, now: string, fetch: SubmissionFetch)
    requires Valid(s)
    ensures Valid(CreateBrief(s, f, now, fetch).0)
  {
    var ins := InsertBrief(s, f, now);
    InsertBriefValid(s, f, now);
    if ins.BriefInserted? {
      var s1 := ins.store;
      var n := |s.briefs|;
      assert s1.briefs[n].id == ins.briefId;
      assert HasBrief(s1.briefs, ins.briefId);
      if fetch.Fetched? && fetch.data.Some? && |fetch.data.value| > 0 {
        ImportSubmissionsValid(s1, ins.briefId, fetch.data.value);
      }
    }
  }

  /** Every fetched submission with an id is on file after a successful
      creation, whether it was imported now or was already stored. */
  lemma CreateBriefImportsSubmissions(s: Store, f: BriefFields, now: string, subs: seq<Submission>)
    requires CreateBrief(s, f, now, Fetched(Some(subs))).1.status == 200
    ensures forall k :: 0 <= k < |subs| && subs[k].id.Some? ==>
      HasSubmission(CreateBrief(s, f, now, Fetched(Some(subs))).0.applications, subs[k].id.value)
  {
    var ins := InsertBrief(s, f, now);
    if |subs| > 0 {
      ImportedSubmissionsOnFile(ins.store, ins.briefId, subs);
    }
  }

  /** A second brief for the same form is refused and changes nothing, and the
      form now shows as connected. */
  lemma SecondBriefForFormRefused(s: Store, f: BriefFields, g: BriefFields, now: string, later: string,
                                  fetch: SubmissionFetch, again: SubmissionFetch, forms: seq<Form>)
    requires CreateBrief(s, f, now, fetch).1.status == 200
    requires g.tallyFormId == f.tallyFormId && g.title.Some?
    ensures var s1 := CreateBrief(s, f, now, fetch).0;
      && CreateBrief(s1, g, later, again) == (s1, Reply(400, Failure(AlreadyConnected)))
      && forall i :: 0 <= i < |forms| && Some(forms[i].id) == f.tallyFormId ==>
           ListForms(s1, Fetched(Some(forms))).value.body.forms[i].isConnected
  {
    var s1 := CreateBrief(s, f, now, fetch).0;
    assert s1.briefs[|s.briefs|].tallyFormId == f.tallyFormId.value;
    assert HasFormId(s1.briefs, f.tallyFormId.value);
  }

  // ---------------------------------------------------------- brief listing

  function BriefRows(briefs: seq<Brief>, apps: seq<Application>): (rows: seq<BriefRow>)
    ensures |rows| == |briefs|
    ensures forall i :: 0 <= i < |briefs| ==> rows[i] == BriefRow(briefs[i], ApplicationCount(apps, briefs[i].id))
    decreases |briefs|
  {
    if |briefs| == 0 then []
    else [BriefRow(briefs[0], ApplicationCount(apps, briefs[0].id))] + BriefRows(briefs[1..], apps)
  }

  function CreatedAtKey(row: BriefRow): Option<string> {
    Some(row.brief.createdAt)
  }

  /** `GET /admin/briefs`: one row per brief with the number of applications
      that reference it, newest brief first. */
  function ListBriefs(s: Store): (r: Reply)
    ensures r.status == 200 && r.body.BriefList?
    ensures |r.body.briefs| == |s.briefs|
    ensures multiset(r.body.briefs) == multiset(BriefRows(s.briefs, s.applications))
    ensures forall i, j :: 0 <= i < j < |r.body.briefs| ==>
      TextLe(r.body.briefs[j].brief.createdAt, r.body.briefs[i].brief.createdAt)
  {
    var rows := SortDesc(BriefRows(s.briefs, s.applications), CreatedAtKey);
    assert |rows| == |multiset(rows)|;
    Reply(200, BriefList(rows))
  }

  /** Each brief is listed exactly with its own application count. */
  lemma ListBriefsRows(s: Store, row: BriefRow)
    ensures row in ListBriefs(s).body.briefs <==>
      row.brief in s.briefs && row.applicationCount == ApplicationCount(s.applications, row.brief.id)
  {
    var rows := BriefRows(s.briefs, s.applications);
    assert row in ListBriefs(s).body.briefs <==> row in multiset(rows);
    if row.brief in s.briefs {
      var i :| 0 <= i < |s.briefs| && s.briefs[i] == row.brief;
      assert rows[i] == BriefRow(s.briefs[i], ApplicationCount(s.applications, s.briefs[i].id));
    }
  }

  // ------------------------------------------------------ brief status update

  function SetBriefStatus(briefs: seq<Brief>, id: int, status: Option<string>): (r: seq<Brief>)
    ensures |r| == |briefs|
    ensures forall i :: 0 <= i < |briefs| ==>
      r[i] == (if briefs[i].id == id then briefs[i].(status := status) else briefs[i])
    decreases |briefs|
  {
    if |briefs| == 0 then []
    else
      [if briefs[0].id == id then briefs[0].(status := status) else briefs[0]]
        + SetBriefStatus(briefs[1..], id, status)
  }

  /** `PUT /admin/brief/:id/status`: sets `status` (NULL when the body has
      none) on the brief with that id and answers success, also when no brief
      has the id. */
  function UpdateBriefStatus(s: Store, id: int, status: Option<string>): (r: (Store, Reply))
    ensures r.1 == Reply(200, Done)
    ensures r.0.admins == s.admins && r.0.applications == s.applications
    ensures r.0.briefSeq == s.briefSeq && r.0.applicationSeq == s.applicationSeq
    ensures |r.0.briefs| == |s.briefs|
    ensures forall i :: 0 <= i < |s.briefs| ==>
      r.0.briefs[i] == s.briefs[i].(status := r.0.briefs[i].status)
    ensures forall i :: 0 <= i < |s.briefs| ==>
      r.0.briefs[i].status == (if s.briefs[i].id == id then status else s.briefs[i].status)
    ensures !HasBrief(s.briefs, id) ==> r.0 == s
  {
    var briefs := SetBriefStatus(s.briefs, id, status);
    assert !HasBrief(s.briefs, id) ==> briefs == s.briefs;
    (s.(briefs := briefs), Reply(200, Done))
  }

  lemma UpdateBriefStatusValid(s: Store, id: int, status: Option<string>)
    requires Valid(s)
    ensures Valid(UpdateBriefStatus(s, id, status).0)
  {
    var s' := UpdateBriefStatus(s, id, status).0;
    forall i | 0 <= i < |s'.applications|
      ensures HasBrief(s'.briefs, s'.applications[i].briefId)
    {
      var k :| 0 <= k < |s.briefs| && s.briefs[k].id == s.applications[i].briefId;
      assert s'.briefs[k].id == s.briefs[k].id;
    }
  }
}

=== FILE: fields.dfy ===
/** Field extraction from a submission's field bag. The server reads each
    logical field as a chain `bag.a || bag.b || … || ''`: the first alias
    whose value is truthy wins, and the empty string is the default. The
    import path and the webhook path use different alias lists. */
module Fields {
  import opened Values

  /** A submission's field bag; a key that is not in the map reads as
      `undefined`. */
  type FieldBag = map<string, JsValue>

  function Get(bag: FieldBag, key: string): JsValue {
    if key in bag then bag[key] else Undefined
  }

  /** Alias `i` is the one the `||` chain stops at. */
  ghost predicate FirstTruthyAt(bag: FieldBag, aliases: seq<string>, i: int) {
    && 0 <= i < |aliases|
    && Truthy(Get(bag, aliases[i]))
    && forall j :: 0 <= j < i ==> !Truthy(Get(bag, aliases[j]))
  }

  /** The value of `bag[aliases[0]] || … || bag[aliases[n-1]] || ''`. */
  function Lookup(bag: FieldBag, aliases: seq<string>): (v: JsValue)
    ensures Bindable(v)
    ensures forall i :: FirstTruthyAt(bag, aliases, i) ==> v == Get(bag, aliases[i])
    ensures (forall i :: 0 <= i < |aliases| ==> !Truthy(Get(bag, aliases[i]))) ==> v == Str("")
    ensures Truthy(v) <==> exists i :: 0 <= i < |aliases| && Truthy(Get(bag, aliases[i]))
    decreases |aliases|
  {
    if |aliases| == 0 then Str("")
    else if Truthy(Get(bag, aliases[0])) then Get(bag, aliases[0])
    else
      var v := Lookup(bag, aliases[1..]);
      assert forall i :: FirstTruthyAt(bag, aliases, i) ==> i > 0 && FirstTruthyAt(bag, aliases[1..], i - 1);
      assert forall i :: 0 < i < |aliases| ==> aliases[1..][i - 1] == aliases[i];
      v
  }

  /** `t` is what the chain over `aliases` puts in a TEXT column: the text of
      the value under the first truthy alias, and the empty string exactly
      when no alias holds a truthy value. */
  ghost predicate Resolves(bag: FieldBag, aliases: seq<string>, t: string) {
    && (forall i :: FirstTruthyAt(bag, aliases, i) ==> Bindable(Get(bag, aliases[i])) && t == ColumnText(Get(bag, aliases[i])))
    && (t == "" <==> forall i :: 0 <= i < |aliases| ==> !Truthy(Get(bag, aliases[i])))
  }

  /** A truthy scalar never has empty column text. */
  lemma TruthyTextNonEmpty(v: JsValue)
    requires Truthy(v)
    ensures Bindable(v) && ColumnText(v) != ""
  {
  }

  /** The text the column receives for that field. */
  function Extract(bag: FieldBag, aliases: seq<string>): (t: string)
    ensures Resolves(bag, aliases, t)
  {
    var v := Lookup(bag, aliases);
    if Truthy(v) then TruthyTextNonEmpty(v); ColumnText(v) else ColumnText(v)
  }

  // Alias lists of the import loop (brief creation).
  const ImportEmail: seq<string> := ["email", "Email"]
  const ImportInstagram: seq<string> := ["instagram", "Instagram", "Instagram Handle"]
  const ImportPortfolio: seq<string> := ["portfolio", "Portfolio", "Portfolio Links"]
  const ImportProposal: seq<string> := ["proposal", "Content Proposal"]

  // Alias lists of the webhook handler.
  const WebhookEmail: seq<string> := ["email", "Email"]
  const WebhookInstagram: seq<string> := ["instagram", "Instagram"]
  const WebhookPortfolio: seq<string> := ["portfolio", "Portfolio"]
  const WebhookProposal: seq<string> := ["proposal", "Content Proposal"]

  /** The four text columns of an application, as extracted from a bag. */
  datatype Extracted = Extracted(email: string, instagram: string, portfolio: string, proposal: string)

  /** The four chains of the import loop of brief creation. */
  function ExtractForImport(bag: FieldBag): (x: Extracted)
    ensures Resolves(bag, ImportEmail, x.email) && Resolves(bag, ImportInstagram, x.instagram)
    ensures Resolves(bag, ImportPortfolio, x.portfolio) && Resolves(bag, ImportProposal, x.proposal)
  {
    Extracted(Extract(bag, ImportEmail), Extract(bag, ImportInstagram),
              Extract(bag, ImportPortfolio), Extract(bag, ImportProposal))
  }

  /** The webhook's four chains. */
  function ExtractForWebhook(bag: FieldBag): (x: Extracted)
    ensures Resolves(bag, WebhookEmail, x.email) && Resolves(bag, WebhookInstagram, x.instagram)
    ensures Resolves(bag, WebhookPortfolio, x.portfolio) && Resolves(bag, WebhookProposal, x.proposal)
  {
    Extracted(Extract(bag, WebhookEmail), Extract(bag, WebhookInstagram),
              Extract(bag, WebhookPortfolio), Extract(bag, WebhookProposal))
  }

  /** Extending an alias list at the end never changes a value the shorter
      list already resolved to. */
  lemma {:induction false} LookupPrefixStable(bag: FieldBag, short: seq<string>, more: seq<string>)
    requires Truthy(Lookup(bag, short))
    ensures Lookup(bag, short + more) == Lookup(bag, short)
    decreases |short|
  {
    if |short| > 0 && !Truthy(Get(bag, short[0])) {
      assert (short + more)[1..] == short[1..] + more;
      LookupPrefixStable(bag, short[1..], more);
    }
  }

  /** Each webhook alias list is a prefix of the import list for the same
      field. */
  lemma WebhookAliasesArePrefixes()
    ensures WebhookEmail == ImportEmail
    ensures ImportInstagram == WebhookInstagram + ["Instagram Handle"]
    ensures ImportPortfolio == WebhookPortfolio + ["Portfolio Links"]
    ensures WebhookProposal == ImportProposal
  {
  }

  /** A field the webhook resolves (to a truthy value) resolves to the same
      value on the import path. */
  lemma WebhookResolvedAgreesWithImport(bag: FieldBag)
    ensures Truthy(Lookup(bag, WebhookEmail)) ==>
      Lookup(bag, ImportEmail) == Lookup(bag, WebhookEmail)
    ensures Truthy(Lookup(bag, WebhookInstagram)) ==>
      Lookup(bag, ImportInstagram) == Lookup(bag, WebhookInstagram)
    ensures Truthy(Lookup(bag, WebhookPortfolio)) ==>
      Lookup(bag, ImportPortfolio) == Lookup(bag, WebhookPortfolio)
    ensures Truthy(Lookup(bag, WebhookProposal)) ==>
      Lookup(bag, ImportProposal) == Lookup(bag, WebhookProposal)
  {
    WebhookAliasesArePrefixes();
    if Truthy(Lookup(bag, WebhookInstagram)) {
      LookupPrefixStable(bag, WebhookInstagram, ["Instagram Handle"]);
    }
    if Truthy(Lookup(bag, WebhookPortfolio)) {
      LookupPrefixStable(bag, WebhookPortfolio, ["Portfolio Links"]);
    }
  }

  /** The converse fails: a bag that only carries "Instagram Handle" gives
      the import path a handle and the webhook path the empty string. */
  lemma ImportSeesMoreAliases()
    ensures var bag := map["Instagram Handle" := Str("@creator")];
      ExtractForImport(bag).instagram == "@creator" && ExtractForWebhook(bag).instagram == ""
  {
    var bag := map["Instagram Handle" := Str("@creator")];
    assert Get(bag, "instagram") == Undefined;
    assert Get(bag, "Instagram") == Undefined;
    assert Get(bag, "Instagram Handle") == Str("@creator");
    assert Lookup(bag, ImportInstagram[2..]) == Str("@creator");
  }

  /** Falsy values fall through: `0`, `false`, `null` and `""` under an
      earlier alias do not hide a later truthy one. */
  lemma FalsyFallsThrough(first: JsValue, later: string)
    requires !Truthy(first) && later != ""
    ensures Extract(map["email" := first, "Email" := Str(later)], ImportEmail) == later
  {
    var bag := map["email" := first, "Email" := Str(later)];
    assert Get(bag, "email") == first;
    assert Get(bag, "Email") == Str(later);
    assert ImportEmail[1..] == ["Email"];
  }
}

=== FILE: http.dfy ===
/** The request-level predicates of the server: the CORS origin check, the
    bearer-token extraction `authorization?.split(' ')[1]`, and the admin
    gate that verifies the token. Token signature and expiry checking is an
    oracle `verify` that yields the signed claims or nothing. */
module Http {
  import opened Values

  /** Origins the CORS check lets through besides requests without one. */
  const AllowedOrigins: seq<string> := [
    "https://muobcreators.com",
    "https://www.muobcreators.com",
    "http://localhost:3000",
    "http://localhost:8080"
  ]

  /** The CORS origin callback: a request without an origin (header absent or
      empty, which JavaScript treats as falsy) is allowed, an origin on the
      list is allowed, any other origin is refused. */
  function CorsAllows(origin: Option<string>): (allowed: bool)
    ensures origin.None? ==> allowed
    ensures origin == Some("") ==> allowed
    ensures origin.Some? && origin.value != "" ==> (allowed <==> origin.value in AllowedOrigins)
  {
    match origin
    case None => true
    case Some(o) => o == "" || o in AllowedOrigins
  }

  /** The allowed requests, against the four origins written out: a falsy
      origin or one of exactly these strings. */
  lemma CorsAllowsExactly(origin: Option<string>)
    ensures CorsAllows(origin) <==>
      origin.None? || origin.value == "" ||
      origin.value in {"https://muobcreators.com", "https://www.muobcreators.com",
                       "http://localhost:3000", "http://localhost:8080"}
  {
  }

  lemma CorsRefusesLookalikes()
    ensures !CorsAllows(Some("https://muobcreators.com/"))
    ensures !CorsAllows(Some("http://muobcreators.com"))
    ensures CorsAllows(Some("http://localhost:3000"))
  {
    assert "https://muobcreators.com/" != AllowedOrigins[0];
    assert "https://muobcreators.com/"[8] != AllowedOrigins[1][8];
    assert "https://muobcreators.com/"[4] != AllowedOrigins[2][4];
    assert "https://muobcreators.com/"[4] != AllowedOrigins[3][4];
    assert "http://muobcreators.com"[4] != AllowedOrigins[0][4];
    assert "http://muobcreators.com"[4] != AllowedOrigins[1][4];
    assert "http://muobcreators.com"[7] != AllowedOrigins[2][7];
    assert "http://muobcreators.com"[7] != AllowedOrigins[3][7];
  }

  /** `s.split(' ')`: the pieces between single spaces, in order; the empty
      string gives one empty piece, and adjacent spaces give empty pieces. */
  function SplitOnSpace(s: string): (pieces: seq<string>)
    ensures |pieces| >= 1
    ensures forall i :: 0 <= i < |pieces| ==> ' ' !in pieces[i]
    decreases |s|
  {
    if |s| == 0 then [""]
    else
      var rest := SplitOnSpace(s[1..]);
      if s[0] == ' ' then [""] + rest
      else
        assert ' ' !in rest[0];
        [[s[0]] + rest[0]] + rest[1..]
  }

  /** `pieces.join(' ')`. */
  function JoinWithSpace(pieces: seq<string>): string
    requires |pieces| >= 1
    decreases |pieces|
  {
    if |pieces| == 1 then pieces[0] else pieces[0] + " " + JoinWithSpace(pieces[1..])
  }

  ghost predicate NoSpaces(pieces: seq<string>) {
    forall i :: 0 <= i < |pieces| ==> ' ' !in pieces[i]
  }

  /** Splitting loses nothing: joining the pieces gives the header back. */
  lemma {:induction false} JoinSplit(s: string)
    ensures JoinWithSpace(SplitOnSpace(s)) == s
    decreases |s|
  {
    if |s| > 0 {
      var rest := SplitOnSpace(s[1..]);
      JoinSplit(s[1..]);
      if s[0] == ' ' {
        assert ([""] + rest)[1..] == rest;
      } else {
        var p := [[s[0]] + rest[0]] + rest[1..];
        if |rest| == 1 {
          assert s == [s[0]] + s[1..];
        } else {
          assert p[1..] == rest[1..];
          assert JoinWithSpace(rest) == rest[0] + " " + JoinWithSpace(rest[1..]);
          assert s == [s[0]] + s[1..];
        }
      }
    }
  }

  /** Splitting the join of space-free pieces gives the pieces back. */
  lemma {:induction false} SplitJoin(pieces: seq<string>)
    requires |pieces| >= 1 && NoSpaces(pieces)
    ensures SplitOnSpace(JoinWithSpace(pieces)) == pieces
    decreases |pieces|, |pieces[0]|
  {
    var p0 := pieces[0];
    if |p0| == 0 {
      if |pieces| == 1 {
      } else {
        var j := JoinWithSpace(pieces);
        assert j == " " + JoinWithSpace(pieces[1..]);
        assert j[1..] == JoinWithSpace(pieces[1..]);
        SplitJoin(pieces[1..]);
        assert pieces == [""] + pieces[1..];
      }
    } else {
      var shorter := [p0[1..]] + pieces[1..];
      assert NoSpaces(shorter) by {
        assert forall k :: 0 <= k < |p0[1..]| ==> p0[1..][k] == p0[k + 1];
      }
      SplitJoin(shorter);
      var j := JoinWithSpace(pieces);
      assert shorter[1..] == pieces[1..];
      assert j == [p0[0]] + JoinWithSpace(shorter) by {
        if |pieces| > 1 {
          assert JoinWithSpace(shorter) == p0[1..] + " " + JoinWithSpace(pieces[1..]);
        }
        assert p0 == [p0[0]] + p0[1..];
      }
      assert j[0] == p0[0] && p0[0] != ' ';
      assert j[1..] == JoinWithSpace(shorter);
      assert [p0[0]] + p0[1..] == p0;
    }
  }

  /** `authorization?.split(' ')[1]`, kept only when truthy: a missing header,
      a header without a space and an empty second piece all give no token. */
  function BearerToken(header: Option<string>): (token: Option<string>)
    ensures token.Some? ==> header.Some? && token.value != "" && ' ' !in token.value
    ensures header.Some? && ' ' !in header.value ==> token.None?
  {
    match header
    case None => None
    case Some(h) =>
      SplitWithoutSpace(h);
      var pieces := SplitOnSpace(h);
      if |pieces| >= 2 && pieces[1] != "" then Some(pieces[1]) else None
  }

  /** A header without a space is one piece, so it has no second piece. */
  lemma {:induction false} SplitWithoutSpace(s: string)
    ensures ' ' !in s ==> SplitOnSpace(s) == [s]
    decreases |s|
  {
    if |s| > 0 && ' ' !in s {
      assert ' ' !in s[1..] by {
        assert forall k :: 0 <= k < |s[1..]| ==> s[1..][k] == s[k + 1];
      }
      SplitWithoutSpace(s[1..]);
      assert [s[0]] + s[1..] == s;
    }
  }

  /** The token is exactly the second space-separated piece, whatever the
      first one says (the scheme word is never checked). */
  lemma BearerTokenOfPieces(scheme: string, token: string, rest: seq<string>)
    requires ' ' !in scheme && ' ' !in token && NoSpaces(rest)
    ensures BearerToken(Some(JoinWithSpace([scheme, token] + rest))) ==
      (if token == "" then None else Some(token))
  {
    var pieces := [scheme, token] + rest;
    assert NoSpaces(pieces) by {
      forall i | 0 <= i < |pieces| ensures ' ' !in pieces[i] {
        if i >= 2 { assert pieces[i] == rest[i - 2]; }
      }
    }
    SplitJoin(pieces);
  }

  /** Every header has that shape, so the previous lemma covers all headers. */
  lemma BearerTokenIsSecondPiece(h: string)
    ensures var pieces := SplitOnSpace(h);
      h == JoinWithSpace(pieces) &&
      BearerToken(Some(h)) == (if |pieces| >= 2 && pieces[1] != "" then Some(pieces[1]) else None)
  {
    JoinSplit(h);
  }

  /** Claims a verified token carries: `{adminId}` from admin login or
      `{email}` from user login. */
  datatype Claims = AdminClaims(adminId: nat) | UserClaims(email: string)

  /** What a handler reads as `decoded.email`: undefined for an admin token. */
  function ClaimedEmail(c: Claims): Option<string> {
    match c
    case AdminClaims(_) => None
    case UserClaims(e) => Some(e)
  }

  /** Outcome of the admin gate: a 401 with its message, or admission with
      the `adminId` the token carried (undefined for a user token). */
  datatype Gate = Refused(message: string) | Admitted(adminId: Option<nat>)

  const NoTokenProvided: string := "No token provided"
  const InvalidToken: string := "Invalid token"

  /** `authenticateAdmin` as written: any token that verifies is admitted. */
  function AuthenticateAdmin(header: Option<string>, verify: string -> Option<Claims>): (g: Gate)
    ensures BearerToken(header).None? ==> g == Refused(NoTokenProvided)
    ensures BearerToken(header).Some? ==>
      (g.Admitted? <==> verify(BearerToken(header).value).Some?)
    ensures BearerToken(header).Some? && verify(BearerToken(header).value).None? ==> g == Refused(InvalidToken)
    ensures g.Refused? ==> g.message in {NoTokenProvided, InvalidToken}
    ensures g.Admitted? ==>
      var claims := verify(BearerToken(header).value).value;
      g.adminId == (if claims.AdminClaims? then Some(claims.adminId) else None)
  {
    match BearerToken(header)
    case None => Refused(NoTokenProvided)
    case Some(t) =>
      match verify(t)
      case None => Refused(InvalidToken)
      case Some(AdminClaims(id)) => Admitted(Some(id))
      case Some(UserClaims(_)) => Admitted(None)
  }

  /** A token obtained from the user login by knowing an applicant's email
      passes the admin gate. */
  lemma UserTokenPassesAdminGate(email: string)
    ensures var verify := (t: string) => if t == "u" then Some(UserClaims(email)) else None;
      AuthenticateAdmin(Some("Bearer u"), verify) == Admitted(None)
  {
    BearerTokenOfPieces("Bearer", "u", []);
    assert JoinWithSpace(["Bearer", "u"]) == "Bearer u";
  }

  /** The admin gate as evidently intended: only tokens carrying an admin
      identity are admitted. */
  function AuthenticateAdminOnly(header: Option<string>, verify: string -> Option<Claims>): (g: Gate)
    ensures g.Admitted? <==>
      BearerToken(header).Some? && verify(BearerToken(header).value).Some? &&
      verify(BearerToken(header).value).value.AdminClaims?
    ensures g.Admitted? ==> g.adminId == Some(verify(BearerToken(header).value).value.adminId)
    ensures BearerToken(header).None? ==> g == Refused(NoTokenProvided)
    ensures BearerToken(header).Some? && g.Refused? ==> g == Refused(InvalidToken)
  {
    match BearerToken(header)
    case None => Refused(NoTokenProvided)
    case Some(t) =>
      match verify(t)
      case Some(AdminClaims(id)) => Admitted(Some(id))
      case _ => Refused(InvalidToken)
  }

  /** The corrected gate admits exactly the admin tokens the written gate
      admits, and refuses user tokens. */
  lemma AdminOnlyRefinesGate(header: Option<string>, verify: string -> Option<Claims>)
    ensures AuthenticateAdminOnly(header, verify).Admitted? ==>
      AuthenticateAdmin(header, verify) == AuthenticateAdminOnly(header, verify)
    ensures AuthenticateAdmin(header, verify).Admitted? && AuthenticateAdmin(header, verify).adminId.None? ==>
      AuthenticateAdminOnly(header, verify) == Refused(InvalidToken)
  {
  }
}

=== FILE: ordering.dfy ===
/** The orderings the queries use: SQLite's BINARY collation on text, NULL
    below every value, and `ORDER BY … DESC` as a stable insertion sort whose
    result is a sorted permutation of its input. */
module Ordering {
  import opened Values

  /** Text order of SQLite's BINARY collation. It compares UTF-8 bytes, which
      orders strings exactly as their code points do. */
  predicate TextLe(a: string, b: string)
    decreases |a|
  {
    if |a| == 0 then true
    else if |b| == 0 then false
    else if a[0] != b[0] then a[0] < b[0]
    else TextLe(a[1..], b[1..])
  }

  lemma {:induction false} TextLeTotal(a: string, b: string)
    ensures TextLe(a, b) || TextLe(b, a)
    decreases |a|
  {
    if |a| != 0 && |b| != 0 && a[0] == b[0] {
      TextLeTotal(a[1..], b[1..]);
    }
  }

  lemma {:induction false} TextLeTransitive(a: string, b: string, c: string)
    requires TextLe(a, b) && TextLe(b, c)
    ensures TextLe(a, c)
    decreases |a|
  {
    if |a| != 0 && |b| != 0 && |c| != 0 && a[0] == b[0] && b[0] == c[0] {
      TextLeTransitive(a[1..], b[1..], c[1..]);
    }
  }

  lemma {:induction false} TextLeAntisymmetric(a: string, b: string)
    requires TextLe(a, b) && TextLe(b, a)
    ensures a == b
    decreases |a|
  {
    if |a| != 0 {
      TextLeAntisymmetric(a[1..], b[1..]);
      assert a == [a[0]] + a[1..];
      assert b == [b[0]] + b[1..];
    }
  }

  /** Order of a nullable sort key: NULL is below every text value. */
  predicate KeyLe(a: Option<string>, b: Option<string>) {
    match a
    case None => true
    case Some(x) => b.Some? && TextLe(x, b.value)
  }

  lemma {:induction false} TextLeReflexive(a: string)
    ensures TextLe(a, a)
    decreases |a|
  {
    if |a| != 0 {
      TextLeReflexive(a[1..]);
    }
  }

  lemma KeyLeReflexive(a: Option<string>)
    ensures KeyLe(a, a)
  {
    if a.Some? {
      TextLeReflexive(a.value);
    }
  }

  lemma KeyLeTotal(a: Option<string>, b: Option<string>)
    ensures KeyLe(a, b) || KeyLe(b, a)
  {
    if a.Some? && b.Some? {
      TextLeTotal(a.value, b.value);
    }
  }

  lemma KeyLeTransitive(a: Option<string>, b: Option<string>, c: Option<string>)
    requires KeyLe(a, b) && KeyLe(b, c)
    ensures KeyLe(a, c)
  {
    if a.Some? {
      TextLeTransitive(a.value, b.value, c.value);
    }
  }

  /** Every earlier element's key is at least every later element's key. */
  ghost predicate SortedDesc<T>(s: seq<T>, key: T -> Option<string>) {
    forall i, j :: 0 <= i < j < |s| ==> KeyLe(key(s[j]), key(s[i]))
  }

  /** Inserts x before the first element whose key is not above x's key. */
  function InsertDesc<T>(x: T, s: seq<T>, key: T -> Option<string>): (r: seq<T>)
    requires SortedDesc(s, key)
    ensures multiset(r) == multiset(s) + multiset{x}
    ensures SortedDesc(r, key)
    decreases |s|
  {
    if |s| == 0 then [x]
    else if KeyLe(key(s[0]), key(x)) then
      InsertAtFront(x, s, key);
      [x] + s
    else
      var tail := InsertDesc(x, s[1..], key);
      KeyLeTotal(key(s[0]), key(x));
      KeepsHead(s[0], s[1..], x, tail, key);
      assert s == [s[0]] + s[1..];
      [s[0]] + tail
  }

  lemma InsertAtFront<T>(x: T, s: seq<T>, key: T -> Option<string>)
    requires SortedDesc(s, key) && |s| > 0 && KeyLe(key(s[0]), key(x))
    ensures SortedDesc([x] + s, key)
  {
    var r := [x] + s;
    forall i, j | 0 <= i < j < |r|
      ensures KeyLe(key(r[j]), key(r[i]))
    {
      if i == 0 && j > 1 {
        KeyLeTransitive(key(s[j - 1]), key(s[0]), key(x));
      }
    }
  }

  lemma KeepsHead<T>(h: T, rest: seq<T>, x: T, tail: seq<T>, key: T -> Option<string>)
    requires SortedDesc([h] + rest, key)
    requires KeyLe(key(x), key(h))
    requires multiset(tail) == multiset(rest) + multiset{x}
    requires SortedDesc(tail, key)
    ensures SortedDesc([h] + tail, key)
  {
    var r := [h] + tail;
    forall i, j | 0 <= i < j < |r|
      ensures KeyLe(key(r[j]), key(r[i]))
    {
      if i == 0 {
        var e := r[j];
        assert e == tail[j - 1];
        assert e in multiset(tail);
        if e != x {
          assert e in multiset(rest);
          var k :| 0 <= k < |rest| && rest[k] == e;
          var hr := [h] + rest;
          assert hr[k + 1] == e && hr[0] == h;
          assert KeyLe(key(hr[k + 1]), key(hr[0]));
        }
      } else {
        assert r[i] == tail[i - 1] && r[j] == tail[j - 1];
      }
    }
  }

  /** `ORDER BY key DESC`: a permutation of s sorted by descending key. */
  function SortDesc<T>(s: seq<T>, key: T -> Option<string>): (r: seq<T>)
    ensures multiset(r) == multiset(s)
    ensures SortedDesc(r, key)
    decreases |s|
  {
    if |s| == 0 then []
    else
      assert s == [s[0]] + s[1..];
      InsertDesc(s[0], SortDesc(s[1..], key), key)
  }

  /** Two permutations that are both sorted by descending key list the same
      keys in the same order: only rows with equal keys can trade places. */
  lemma {:induction false} SortedPermutationsAgreeOnKeys<T>(a: seq<T>, b: seq<T>, key: T -> Option<string>)
    requires multiset(a) == multiset(b)
    requires SortedDesc(a, key) && SortedDesc(b, key)
    ensures |a| == |b|
    ensures forall i :: 0 <= i < |a| ==> key(a[i]) == key(b[i])
    decreases |a|
  {
    assert |a| == |multiset(a)| == |multiset(b)| == |b|;
    if |a| > 0 {
      HeadKeysAgree(a, b, key);
      assert a[0] in multiset(b);
      var j :| 0 <= j < |b| && b[j] == a[0];
      var b' := b[..j] + b[j + 1..];
      SamePermutationAfterDrop(a, b, j);
      SortedDropAt(b, j, key);
      SortedDropAt(a, 0, key);
      SortedPermutationsAgreeOnKeys(a[1..], b', key);
      ShiftedKeysAgree(a, b, j, key);
    }
  }

  /** Once the tails agree after dropping a[0] from a and its copy b[j] from
      b, the whole sequences agree: b[0..j] all carry the head's key. */
  lemma ShiftedKeysAgree<T>(a: seq<T>, b: seq<T>, j: nat, key: T -> Option<string>)
    requires |a| == |b| && j < |b| && SortedDesc(b, key)
    requires b[j] == a[0] && key(a[0]) == key(b[0])
    requires forall k :: 0 <= k < |a| - 1 ==> key(a[1..][k]) == key((b[..j] + b[j + 1..])[k])
    ensures forall i :: 0 <= i < |a| ==> key(a[i]) == key(b[i])
  {
    var b' := b[..j] + b[j + 1..];
    forall k | 0 < k < |a|
      ensures key(a[k]) == key(b[k])
    {
      assert a[1..][k - 1] == a[k];
      assert key(a[k]) == key(b'[k - 1]);
      if k - 1 < j {
        assert b'[k - 1] == b[k - 1];
        EqualKeysBetween(b, 0, j, k - 1, key);
        EqualKeysBetween(b, 0, j, k, key);
      } else {
        assert b'[k - 1] == b[k];
      }
    }
  }

  lemma HeadKeysAgree<T>(a: seq<T>, b: seq<T>, key: T -> Option<string>)
    requires multiset(a) == multiset(b) && |a| > 0
    requires SortedDesc(a, key) && SortedDesc(b, key)
    ensures |b| > 0 && key(a[0]) == key(b[0])
  {
    assert a[0] in multiset(b);
    var j :| 0 <= j < |b| && b[j] == a[0];
    assert b[0] in multiset(a);
    var i :| 0 <= i < |a| && a[i] == b[0];
    if i == 0 { KeyLeReflexive(key(a[0])); }
    if j == 0 { KeyLeReflexive(key(b[0])); }
    assert KeyLe(key(a[i]), key(a[0]));
    assert KeyLe(key(b[j]), key(b[0]));
    KeyLeAntisymmetric(key(a[0]), key(b[0]));
  }

  lemma SamePermutationAfterDrop<T>(a: seq<T>, b: seq<T>, j: nat)
    requires multiset(a) == multiset(b) && |a| > 0 && j < |b| && b[j] == a[0]
    ensures multiset(a[1..]) == multiset(b[..j] + b[j + 1..])
  {
    assert a == [a[0]] + a[1..];
    assert b == b[..j] + [b[j]] + b[j + 1..];
    assert multiset(b) == multiset(b[..j] + b[j + 1..]) + multiset{b[j]};
    assert multiset(a) == multiset(a[1..]) + multiset{a[0]};
    calc {
      multiset(a[1..]);
      multiset(a) - multiset{a[0]};
      multiset(b) - multiset{b[j]};
      multiset(b[..j] + b[j + 1..]);
    }
  }

  lemma KeyLeAntisymmetric(a: Option<string>, b: Option<string>)
    requires KeyLe(a, b) && KeyLe(b, a)
    ensures a == b
  {
    if a.Some? {
      TextLeAntisymmetric(a.value, b.value);
    }
  }

  lemma EqualKeysBetween<T>(s: seq<T>, lo: nat, hi: nat, m: nat, key: T -> Option<string>)
    requires SortedDesc(s, key) && lo <= m <= hi < |s|
    requires key(s[lo]) == key(s[hi])
    ensures key(s[m]) == key(s[lo])
  {
    if lo < m < hi {
      KeyLeAntisymmetric(key(s[m]), key(s[lo]));
    }
  }

  lemma SortedDropAt<T>(s: seq<T>, j: nat, key: T -> Option<string>)
    requires SortedDesc(s, key) && j < |s|
    ensures SortedDesc(s[..j] + s[j + 1..], key)
  {
    var r := s[..j] + s[j + 1..];
    forall p, q | 0 <= p < q < |r|
      ensures KeyLe(key(r[q]), key(r[p]))
    {
      var p' := if p < j then p else p + 1;
      var q' := if q < j then q else q + 1;
      assert r[p] == s[p'] && r[q] == s[q'];
    }
  }
}

=== FILE: replies.dfy ===
/** The JSON replies of the routes, as status code plus body. Rows returned by
    the listing queries are `a.*`/`b.*` plus the joined columns each query
    selects. A signed token is represented by the claims it carries. */
module Replies {
  import opened Values
  import opened Schema
  import opened Http
  import opened Tally

  /** `b.*, COUNT(a.id) as application_count`. */
  datatype BriefRow = BriefRow(brief: Brief, applicationCount: nat)

  /** `a.*, b.title as brief_title, b.tier`. */
  datatype ApplicationRow = ApplicationRow(application: Application, briefTitle: string, tier: Option<string>)

  /** `a.*, b.title as brief_title, b.location, b.tier`. */
  datatype UserApplicationRow = UserApplicationRow(
    application: Application, briefTitle: string, location: Option<string>, tier: Option<string>)

  /** `{...form, isConnected}`. */
  datatype FormWithStatus = FormWithStatus(form: Form, isConnected: bool)

  datatype Stats = Stats(
    totalBriefs: nat,
    liveBriefs: nat,
    expiredBriefs: nat,
    totalApplications: nat,
    pendingApplications: nat,
    acceptedApplications: nat,
    unsuccessfulApplications: nat)

  datatype Body =
    | Received                                   // {received: true}
    | Failure(error: string)                     // {error}
    | Uncaught                                   // an exception no handler catches
    | Done                                       // {success: true}
    | BriefCreated(briefId: nat, importedCount: nat, warning: Option<string>)
    | BulkUpdated(updatedCount: nat)
    | AdminLoggedIn(token: Claims, username: string)
    | UserLoggedIn(token: Claims, email: string)
    | BriefList(briefs: seq<BriefRow>)
    | ApplicationList(applications: seq<ApplicationRow>)
    | UserApplicationList(userApplications: seq<UserApplicationRow>)
    | FormList(forms: seq<FormWithStatus>)
    | StatsReport(stats: Stats)

  datatype Reply = Reply(status: nat, body: Body)

  const AlreadyConnected: string := "This form is already connected to a brief"
  const FailedToCreateBrief: string := "Failed to create brief"
  const ImportWarning: string := "Brief created but failed to import existing submissions"
  const FailedToFetchForms: string := "Failed to fetch Tally forms"
  const InvalidCredentials: string := "Invalid credentials"
  const NoApplicationsForEmail: string := "No applications found with this email"
}

=== FILE: schema.dfy ===
/** The three tables the server creates in SQLite, as an immutable store, and
    the two INSERT statements whose constraint handling matters: a brief
    insert that can violate NOT NULL or UNIQUE, and the INSERT OR IGNORE of an
    application keyed on its unique submission id.

    Rows are kept in rowid order. Each table has an AUTOINCREMENT counter
    (SQLite's `sqlite_sequence`); rows are never deleted, so a new row's id is
    the counter plus one. */
module Schema {
  import opened Values
  import Ordering

  datatype Admin = Admin(id: nat, username: string, passwordHash: string)

  datatype Brief = Brief(
    id: nat,
    tallyFormId: string,
    tallyFormName: Option<string>,
    title: string,
    location: Option<string>,
    tier: Option<string>,
    requirements: Option<string>,
    dates: Option<string>,
    status: Option<string>,
    createdAt: string)

  /** `email`, `instagram`, `portfolio` and `content_proposal` always receive
      the extracted text, never NULL; `status` and `admin_feedback` are
      nullable because the update routes bind whatever the body holds. */
  datatype Application = Application(
    id: nat,
    briefId: nat,
    submissionId: string,
    email: string,
    instagram: string,
    portfolio: string,
    contentProposal: string,
    status: Option<string>,
    adminFeedback: Option<string>,
    submittedAt: Option<string>,
    rawTallyData: string)

  datatype Store = Store(
    admins: seq<Admin>,
    briefs: seq<Brief>,
    applications: seq<Application>,
    adminSeq: nat,
    briefSeq: nat,
    applicationSeq: nat)

  /** Column defaults. */
  const LiveStatus: string := "live"
  const SubmittedStatus: string := "submitted"

  const EmptyStore: Store := Store([], [], [], 0, 0, 0)

  predicate HasBrief(briefs: seq<Brief>, id: int) {
    exists i :: 0 <= i < |briefs| && briefs[i].id == id
  }

  predicate HasFormId(briefs: seq<Brief>, formId: string) {
    exists i :: 0 <= i < |briefs| && briefs[i].tallyFormId == formId
  }

  predicate HasSubmission(apps: seq<Application>, submissionId: string) {
    exists i :: 0 <= i < |apps| && apps[i].submissionId == submissionId
  }

  /** Appending a row adds exactly its submission id to those on file. */
  lemma HasSubmissionAppend(apps: seq<Application>, a: Application, submissionId: string)
    ensures HasSubmission(apps + [a], submissionId) <==>
      HasSubmission(apps, submissionId) || a.submissionId == submissionId
  {
    var all := apps + [a];
    assert forall i :: 0 <= i < |apps| ==> all[i] == apps[i];
    assert all[|apps|] == a;
  }

  predicate HasUsername(admins: seq<Admin>, username: string) {
    exists i :: 0 <= i < |admins| && admins[i].username == username
  }

  /** Ids grow in rowid order and never pass the AUTOINCREMENT counter; the
      UNIQUE columns are pairwise distinct. */
  ghost predicate AdminsValid(admins: seq<Admin>, counter: nat) {
    && (forall i :: 0 <= i < |admins| ==> 1 <= admins[i].id <= counter)
    && (forall i, j :: 0 <= i < j < |admins| ==> admins[i].id < admins[j].id)
    && (forall i, j :: 0 <= i < j < |admins| ==> admins[i].username != admins[j].username)
  }

  ghost predicate BriefsValid(briefs: seq<Brief>, counter: nat) {
    && (forall i :: 0 <= i < |briefs| ==> 1 <= briefs[i].id <= counter)
    && (forall i, j :: 0 <= i < j < |briefs| ==> briefs[i].id < briefs[j].id)
    && (forall i, j :: 0 <= i < j < |briefs| ==> briefs[i].tallyFormId != briefs[j].tallyFormId)
  }

  ghost predicate ApplicationsValid(apps: seq<Application>, counter: nat) {
    && (forall i :: 0 <= i < |apps| ==> 1 <= apps[i].id <= counter)
    && (forall i, j :: 0 <= i < j < |apps| ==> apps[i].id < apps[j].id)
    && (forall i, j :: 0 <= i < j < |apps| ==> apps[i].submissionId != apps[j].submissionId)
  }

  /** Every application points at an existing brief. SQLite does not enforce
      the foreign key, but every insert binds the id of a brief it has just
      found or created, and briefs are never deleted. */
  ghost predicate ParentsExist(s: Store) {
    forall i :: 0 <= i < |s.applications| ==> HasBrief(s.briefs, s.applications[i].briefId)
  }

  ghost predicate Valid(s: Store) {
    && AdminsValid(s.admins, s.adminSeq)
    && BriefsValid(s.briefs, s.briefSeq)
    && ApplicationsValid(s.applications, s.applicationSeq)
    && ParentsExist(s)
  }

  /** Rewriting applications without touching their ids, briefs or
      submission ids keeps the invariant. */
  lemma SameKeysValid(s: Store, apps: seq<Application>)
    requires Valid(s) && |apps| == |s.applications|
    requires forall i :: 0 <= i < |apps| ==>
      apps[i].id == s.applications[i].id && apps[i].briefId == s.applications[i].briefId &&
      apps[i].submissionId == s.applications[i].submissionId
    ensures Valid(s.(applications := apps))
  {
  }

  lemma EmptyStoreValid()
    ensures Valid(EmptyStore)
  {
  }

  /** Under the invariant a brief id names at most one row. */
  lemma BriefIdsDistinct(s: Store, i: int, j: int)
    requires Valid(s) && 0 <= i < |s.briefs| && 0 <= j < |s.briefs|
    requires s.briefs[i].id == s.briefs[j].id
    ensures i == j
  {
  }

  // ---------------------------------------------------------------- admins

  /** The startup seed `INSERT OR IGNORE INTO admins (username,
      password_hash)`: adds the user unless the username is taken. Under
      AUTOINCREMENT SQLite draws the new rowid before the UNIQUE check, so an
      ignored seed still advances the table's counter. */
  function SeedAdmin(s: Store, username: string, passwordHash: string): (s': Store)
    ensures HasUsername(s'.admins, username)
    ensures s'.briefs == s.briefs && s'.applications == s.applications
    ensures s'.adminSeq == s.adminSeq + 1
    ensures HasUsername(s.admins, username) ==> s'.admins == s.admins && s' == s.(adminSeq := s.adminSeq + 1)
    ensures !HasUsername(s.admins, username) ==>
      && |s'.admins| == |s.admins| + 1
      && s'.admins[..|s.admins|] == s.admins
      && s'.admins[|s.admins|].username == username
      && s'.admins[|s.admins|].passwordHash == passwordHash
      && s'.admins[|s.admins|].id > s.adminSeq
  {
    if HasUsername(s.admins, username) then s.(adminSeq := s.adminSeq + 1)
    else
      var a := Admin(s.adminSeq + 1, username, passwordHash);
      assert (s.admins + [a])[|s.admins|] == a;
      s.(admins := s.admins + [a], adminSeq := s.adminSeq + 1)
  }

  lemma {:induction false} SeedAdminValid(s: Store, username: string, passwordHash: string)
    requires Valid(s)
    ensures Valid(SeedAdmin(s, username, passwordHash))
  {
    var s' := SeedAdmin(s, username, passwordHash);
    if !HasUsername(s.admins, username) {
      var n := |s.admins|;
      assert forall i :: 0 <= i < n ==> s'.admins[i] == s.admins[i];
      assert s'.admins[n].username == username;
      assert forall i :: 0 <= i < n ==> s.admins[i].username != username;
    }
  }

  /** Seeding on every startup adds the default admin once: a later seed,
      even with another hash, leaves the admins table as it is and only
      advances the counter. */
  lemma SeedAdminIdempotent(s: Store, username: string, passwordHash: string, otherHash: string)
    ensures var s1 := SeedAdmin(s, username, passwordHash);
      SeedAdmin(s1, username, otherHash) == s1.(adminSeq := s1.adminSeq + 1)
  {
  }

  // ---------------------------------------------------------------- briefs

  /** The values the brief insert binds, straight from the request body. */
  datatype BriefFields = BriefFields(
    tallyFormId: Option<string>,
    tallyFormName: Option<string>,
    title: Option<string>,
    location: Option<string>,
    tier: Option<string>,
    requirements: Option<string>,
    dates: Option<string>)

  /** SQLite checks NOT NULL before the UNIQUE index, so a body without
      `tallyFormId` or `title` fails on NOT NULL even if the id is taken. */
  datatype BriefInsert = BriefInserted(store: Store, briefId: nat) | NotNullViolation | UniqueViolation

  function InsertBrief(s: Store, f: BriefFields, now: string): (r: BriefInsert)
    ensures r.NotNullViolation? <==> f.tallyFormId.None? || f.title.None?
    ensures r.UniqueViolation? <==>
      f.tallyFormId.Some? && f.title.Some? && HasFormId(s.briefs, f.tallyFormId.value)
    ensures r.BriefInserted? ==>
      var s' := r.store;
      && s'.admins == s.admins && s'.applications == s.applications
      && |s'.briefs| == |s.briefs| + 1
      && s'.briefs[..|s.briefs|] == s.briefs
      && r.briefId == s'.briefs[|s.briefs|].id
      && r.briefId > s.briefSeq
      && s'.briefs[|s.briefs|].status == Some(LiveStatus)
      && Some(s'.briefs[|s.briefs|].tallyFormId) == f.tallyFormId
      && Some(s'.briefs[|s.briefs|].title) == f.title
      && s'.briefs[|s.briefs|].tier == f.tier
      && s'.briefs[|s.briefs|].location == f.location
    ensures r.BriefInserted? ==>
      && r.briefId == s.briefSeq + 1
      && r.store.briefs[|s.briefs|] == Brief(s.briefSeq + 1, f.tallyFormId.value, f.tallyFormName, f.title.value,
                                             f.location, f.tier, f.requirements, f.dates, Some(LiveStatus), now)
      && r.store == s.(briefs := r.store.briefs, briefSeq := s.briefSeq + 1)
  {
    if f.tallyFormId.None? || f.title.None? then NotNullViolation
    else if HasFormId(s.briefs, f.tallyFormId.value) then UniqueViolation
    else
      var b := Brief(s.briefSeq + 1, f.tallyFormId.value, f.tallyFormName, f.title.value,
                     f.location, f.tier, f.requirements, f.dates, Some(LiveStatus), now);
      assert (s.briefs + [b])[|s.briefs|] == b;
      BriefInserted(s.(briefs := s.briefs + [b], briefSeq := s.briefSeq + 1), s.briefSeq + 1)
  }

  lemma {:induction false} InsertBriefValid(s: Store, f: BriefFields, now: string)
    requires Valid(s)
    ensures InsertBrief(s, f, now).BriefInserted? ==> Valid(InsertBrief(s, f, now).store)
  {
    var r := InsertBrief(s, f, now);
    if r.BriefInserted? {
      var s' := r.store;
      var n := |s.briefs|;
      assert forall i :: 0 <= i < n ==> s'.briefs[i] == s.briefs[i];
      assert forall i :: 0 <= i < n ==> s.briefs[i].tallyFormId != f.tallyFormId.value;
      forall i | 0 <= i < |s'.applications|
        ensures HasBrief(s'.briefs, s'.applications[i].briefId)
      {
        var k :| 0 <= k < n && s.briefs[k].id == s.applications[i].briefId;
        assert s'.briefs[k].id == s'.applications[i].briefId;
      }
    }
  }

  // ---------------------------------------------------------- applications

  /** The values the application insert binds. `submissionId` is `None` when
      the payload has no id; NOT NULL then makes the insert skip the row. */
  datatype NewApplication = NewApplication(
    briefId: nat,
    submissionId: Option<string>,
    email: string,
    instagram: string,
    portfolio: string,
    contentProposal: string,
    submittedAt: Option<string>,
    rawTallyData: string)

  /** The row the insert appends when it does not ignore: the next id, the
      bound columns, `status` defaulting to 'submitted' and no feedback. */
  function RowOf(row: NewApplication, id: nat, submissionId: string): (a: Application)
    ensures a.id == id && a.briefId == row.briefId && a.submissionId == submissionId
    ensures a.status == Some(SubmittedStatus) && a.adminFeedback.None?
  {
    Application(id, row.briefId, submissionId, row.email, row.instagram, row.portfolio,
                row.contentProposal, Some(SubmittedStatus), None, row.submittedAt, row.rawTallyData)
  }

  /** The store after an ignored insert: no table changes, but the
      applications counter has moved past the rowid SQLite drew. */
  function Skipped(s: Store): (s': Store)
    ensures s'.admins == s.admins && s'.briefs == s.briefs && s'.applications == s.applications
    ensures s'.adminSeq == s.adminSeq && s'.briefSeq == s.briefSeq
    ensures s'.applicationSeq == s.applicationSeq + 1
  {
    s.(applicationSeq := s.applicationSeq + 1)
  }

  /** `INSERT OR IGNORE INTO applications …`: keyed on the UNIQUE NOT NULL
      `tally_submission_id`, a row whose id is missing or already stored is
      skipped. Under AUTOINCREMENT the rowid is drawn before the constraints
      are checked, so every run, skipped or not, advances the counter by one. */
  function InsertApplicationOrIgnore(s: Store, row: NewApplication): (s': Store)
    ensures s'.applicationSeq == s.applicationSeq + 1
    ensures row.submissionId.None? ==> s' == Skipped(s)
    ensures row.submissionId.Some? && HasSubmission(s.applications, row.submissionId.value) ==> s' == Skipped(s)
    ensures row.submissionId.Some? && !HasSubmission(s.applications, row.submissionId.value) ==>
      && s'.admins == s.admins && s'.briefs == s.briefs && s'.briefSeq == s.briefSeq
      && s'.applications == s.applications + [RowOf(row, s.applicationSeq + 1, row.submissionId.value)]
      && s'.applicationSeq == s.applicationSeq + 1
    ensures row.submissionId.Some? ==> HasSubmission(s'.applications, row.submissionId.value)
  {
    match row.submissionId
    case None => Skipped(s)
    case Some(sid) =>
      if HasSubmission(s.applications, sid) then Skipped(s)
      else
        var a := RowOf(row, s.applicationSeq + 1, sid);
        assert (s.applications + [a])[|s.applications|] == a;
        s.(applications := s.applications + [a], applicationSeq := s.applicationSeq + 1)
  }

  /** Running the same insert twice leaves the tables as one run does; the
      second run only advances the counter. */
  lemma InsertApplicationOrIgnoreIdempotent(s: Store, row: NewApplication)
    ensures var s1 := InsertApplicationOrIgnore(s, row);
      InsertApplicationOrIgnore(s1, row) == Skipped(s1)
  {
  }

  /** A second delivery of the same submission id is ignored whatever its
      other columns say: the first delivery's row stays, and only the counter
      moves. */
  lemma StoredSubmissionIgnored(s: Store, row: NewApplication, again: NewApplication)
    requires row.submissionId.Some? && again.submissionId == row.submissionId
    ensures var s1 := InsertApplicationOrIgnore(s, row);
      InsertApplicationOrIgnore(s1, again) == Skipped(s1)
  {
  }

  /** Ignored runs leave gaps in the ids: after a submission is delivered
      twice, the next new submission is stored under the id three past the
      counter, not two. */
  lemma RedeliveryLeavesIdGap(s: Store, row: NewApplication, next: NewApplication)
    requires row.submissionId.Some? && !HasSubmission(s.applications, row.submissionId.value)
    requires next.submissionId.Some? && next.submissionId != row.submissionId
    requires !HasSubmission(s.applications, next.submissionId.value)
    ensures var s3 := InsertApplicationOrIgnore(InsertApplicationOrIgnore(InsertApplicationOrIgnore(s, row), row), next);
      s3.applications == s.applications + [RowOf(row, s.applicationSeq + 1, row.submissionId.value),
                                           RowOf(next, s.applicationSeq + 3, next.submissionId.value)]
  {
  }

  lemma {:induction false} InsertApplicationValid(s: Store, row: NewApplication)
    requires Valid(s) && HasBrief(s.briefs, row.briefId)
    ensures Valid(InsertApplicationOrIgnore(s, row))
  {
    var s' := InsertApplicationOrIgnore(s, row);
    if row.submissionId.Some? && !HasSubmission(s.applications, row.submissionId.value) {
      var a := RowOf(row, s.applicationSeq + 1, row.submissionId.value);
      AppendApplicationValid(s.applications, s.applicationSeq, a);
      var n := |s.applications|;
      assert forall i :: 0 <= i < n ==> s'.applications[i] == s.applications[i];
      assert s'.applications[n] == a;
    }
  }

  /** Appending an application under the next id with a submission id not
      on file keeps the table's part of the invariant. */
  lemma AppendApplicationValid(apps: seq<Application>, counter: nat, a: Application)
    requires ApplicationsValid(apps, counter)
    requires a.id == counter + 1 && !HasSubmission(apps, a.submissionId)
    ensures ApplicationsValid(apps + [a], counter + 1)
  {
    var all := apps + [a];
    assert forall i :: 0 <= i < |apps| ==> all[i] == apps[i];
    assert all[|apps|] == a;
  }

  // ------------------------------------------------------------ batch insert

  /** Row `k` of a batch is the first of the batch carrying its submission
      id, and that id was not on file before the batch: the one run of the
      batch that stores it. */
  ghost predicate FirstNewAt(apps: seq<Application>, rows: seq<NewApplication>, k: int) {
    && 0 <= k < |rows| && rows[k].submissionId.Some?
    && !HasSubmission(apps, rows[k].submissionId.value)
    && forall m :: 0 <= m < k ==> rows[m].submissionId != rows[k].submissionId
  }

  /** The application run `k` of a batch stores: each earlier run, stored or
      ignored, has advanced the counter by one. */
  function StoredAt(rows: seq<NewApplication>, seq0: nat, k: int): Application
    requires 0 <= k < |rows| && rows[k].submissionId.Some?
  {
    RowOf(rows[k], seq0 + k + 1, rows[k].submissionId.value)
  }

  /** Row `i` of `after` is the one stored for a first new row of the batch. */
  ghost predicate IsFirstNewRow(before: seq<Application>, after: seq<Application>,
                                rows: seq<NewApplication>, seq0: nat, i: int)
    requires 0 <= i < |after|
  {
    exists k :: FirstNewAt(before, rows, k) && after[i] == StoredAt(rows, seq0, k)
  }

  /** Every row added after `before` is stored for a first new row. */
  ghost predicate AddedAreFirstNew(before: seq<Application>, after: seq<Application>,
                                   rows: seq<NewApplication>, seq0: nat) {
    forall i :: |before| <= i < |after| ==> IsFirstNewRow(before, after, rows, seq0, i)
  }

  /** Every first new row has its application among those added after `before`. */
  ghost predicate FirstNewAreAdded(before: seq<Application>, after: seq<Application>,
                                   rows: seq<NewApplication>, seq0: nat)
    requires |before| <= |after|
  {
    forall k :: FirstNewAt(before, rows, k) ==> StoredAt(rows, seq0, k) in after[|before|..]
  }

  /** A prepared `INSERT OR IGNORE INTO applications` run once per row, in
      order. The added applications are exactly those of the first rows
      carrying a submission id not on file before, each under the counter as
      it stood at that row's run. */
  function InsertEachOrIgnore(s: Store, rows: seq<NewApplication>): (s': Store)
    ensures s'.admins == s.admins && s'.briefs == s.briefs
    ensures s'.adminSeq == s.adminSeq && s'.briefSeq == s.briefSeq
    ensures s'.applicationSeq == s.applicationSeq + |rows|
    ensures |s.applications| <= |s'.applications| <= |s.applications| + |rows|
    ensures s'.applications[..|s.applications|] == s.applications
    ensures AddedAreFirstNew(s.applications, s'.applications, rows, s.applicationSeq)
    ensures FirstNewAreAdded(s.applications, s'.applications, rows, s.applicationSeq)
    decreases |rows|
  {
    if |rows| == 0 then s
    else
      var s1 := InsertApplicationOrIgnore(s, rows[0]);
      var s' := InsertEachOrIgnore(s1, rows[1..]);
      PrefixOfPrefix(s.applications, s1.applications, s'.applications);
      InsertEachStep(s, s1, s'.applications, rows);
      s'
  }

  lemma PrefixOfPrefix<T>(a: seq<T>, b: seq<T>, c: seq<T>)
    requires |a| <= |b| <= |c| && b[..|a|] == a && c[..|b|] == b
    ensures c[..|a|] == a
  {
    assert c[..|a|] == c[..|b|][..|a|];
  }

  /** What occurs after position `n1` occurs after any earlier position. */
  lemma InLaterSuffix<T>(xs: seq<T>, n0: nat, n1: nat, x: T)
    requires n0 <= n1 <= |xs| && x in xs[n1..]
    ensures x in xs[n0..]
  {
    var j :| 0 <= j < |xs[n1..]| && xs[n1..][j] == x;
    assert xs[n0..][j + n1 - n0] == x;
  }

  /** What the first run of a batch does to the table `before`, giving `mid`:
      it appends the application of row 0 exactly when that row is a first
      new one. */
  ghost predicate FirstRunShape(before: seq<Application>, mid: seq<Application>,
                                rows: seq<NewApplication>, seq0: nat) {
    && |rows| > 0
    && mid == (if FirstNewAt(before, rows, 0) then before + [StoredAt(rows, seq0, 0)] else before)
  }

  lemma FirstRunOfBatch(s: Store, rows: seq<NewApplication>)
    requires |rows| > 0
    ensures FirstRunShape(s.applications, InsertApplicationOrIgnore(s, rows[0]).applications,
                          rows, s.applicationSeq)
  {
  }

  /** Row `k >= 1` is a first new one of the whole batch exactly when it is
      one of the rest of the batch after the first run. */
  lemma FirstNewShift(before: seq<Application>, mid: seq<Application>,
                      rows: seq<NewApplication>, seq0: nat, k: int)
    requires FirstRunShape(before, mid, rows, seq0)
    requires 1 <= k < |rows|
    ensures FirstNewAt(before, rows, k) <==> FirstNewAt(mid, rows[1..], k - 1)
  {
    var rest := rows[1..];
    assert rest[k - 1] == rows[k];
    assert forall m :: 0 <= m < k - 1 ==> rest[m] == rows[m + 1];
    if rows[k].submissionId.Some? && FirstNewAt(before, rows, 0) {
      HasSubmissionAppend(before, StoredAt(rows, seq0, 0), rows[k].submissionId.value);
    }
  }

  /** Run `k` of the rest, one run later, stores what run `k + 1` of the
      whole batch stores. */
  lemma StoredAtShift(rows: seq<NewApplication>, seq0: nat, k: int)
    requires 0 <= k < |rows| - 1 && rows[k + 1].submissionId.Some?
    ensures rows[1..][k] == rows[k + 1]
    ensures StoredAt(rows[1..], seq0 + 1, k) == StoredAt(rows, seq0, k + 1)
  {
  }

  /** One run followed by the rest of the batch keeps both per-row facts. */
  lemma InsertEachStep(s: Store, s1: Store, after: seq<Application>, rows: seq<NewApplication>)
    requires |rows| > 0 && s1 == InsertApplicationOrIgnore(s, rows[0])
    requires |s1.applications| <= |after| && after[..|s1.applications|] == s1.applications
    requires AddedAreFirstNew(s1.applications, after, rows[1..], s.applicationSeq + 1)
    requires FirstNewAreAdded(s1.applications, after, rows[1..], s.applicationSeq + 1)
    ensures |s.applications| <= |after|
    ensures AddedAreFirstNew(s.applications, after, rows, s.applicationSeq)
    ensures FirstNewAreAdded(s.applications, after, rows, s.applicationSeq)
  {
    FirstRunOfBatch(s, rows);
    StepAdded(s.applications, s1.applications, after, rows, s.applicationSeq);
    StepFirstNew(s.applications, s1.applications, after, rows, s.applicationSeq);
  }

  /** After one run, the applications the rest added are stored for first
      new rows of the whole batch, and so is the one the first run added. */
  lemma StepAdded(before: seq<Application>, mid: seq<Application>, after: seq<Application>,
                  rows: seq<NewApplication>, seq0: nat)
    requires FirstRunShape(before, mid, rows, seq0)
    requires |mid| <= |after| && after[..|mid|] == mid
    requires AddedAreFirstNew(mid, after, rows[1..], seq0 + 1)
    ensures AddedAreFirstNew(before, after, rows, seq0)
  {
    forall i | |before| <= i < |after|
      ensures IsFirstNewRow(before, after, rows, seq0, i)
    {
      if i < |mid| {
        assert after[i] == mid[i];
        assert FirstNewAt(before, rows, 0);
      } else {
        assert IsFirstNewRow(mid, after, rows[1..], seq0 + 1, i);
        var k' :| FirstNewAt(mid, rows[1..], k') && after[i] == StoredAt(rows[1..], seq0 + 1, k');
        FirstNewShift(before, mid, rows, seq0, k' + 1);
        LaterRunRow(before, after, rows, seq0, i, k');
      }
    }
  }

  /** An application the rest stored for its row `k'` is the one stored for
      row `k' + 1` of the whole batch. */
  lemma LaterRunRow(before: seq<Application>, after: seq<Application>,
                    rows: seq<NewApplication>, seq0: nat, i: int, k': int)
    requires 0 <= i < |after|
    requires 0 <= k' < |rows| - 1 && rows[k' + 1].submissionId.Some?
    requires FirstNewAt(before, rows, k' + 1)
    requires after[i] == StoredAt(rows[1..], seq0 + 1, k')
    ensures IsFirstNewRow(before, after, rows, seq0, i)
  {
    StoredAtShift(rows, seq0, k');
  }

  /** After one run, every first new row of the whole batch has its
      application added: the first by this run, the others by the rest. */
  lemma StepFirstNew(before: seq<Application>, mid: seq<Application>, after: seq<Application>,
                     rows: seq<NewApplication>, seq0: nat)
    requires FirstRunShape(before, mid, rows, seq0)
    requires |mid| <= |after| && after[..|mid|] == mid
    requires FirstNewAreAdded(mid, after, rows[1..], seq0 + 1)
    ensures |before| <= |after|
    ensures FirstNewAreAdded(before, after, rows, seq0)
  {
    forall k | FirstNewAt(before, rows, k)
      ensures StoredAt(rows, seq0, k) in after[|before|..]
    {
      if k == 0 {
        var n0 := |before|;
        assert after[n0] == mid[n0];
        assert after[n0..][0] == after[n0];
      } else {
        FirstNewShift(before, mid, rows, seq0, k);
        LaterRunAdded(before, mid, after, rows, seq0, k);
      }
    }
  }

  /** A later first new row has its application among those the rest added. */
  lemma LaterRunAdded(before: seq<Application>, mid: seq<Application>, after: seq<Application>,
                      rows: seq<NewApplication>, seq0: nat, k: int)
    requires |before| <= |mid| <= |after| && 1 <= k < |rows|
    requires FirstNewAreAdded(mid, after, rows[1..], seq0 + 1)
    requires rows[k].submissionId.Some? && FirstNewAt(mid, rows[1..], k - 1)
    ensures StoredAt(rows, seq0, k) in after[|before|..]
  {
    StoredAtShift(rows, seq0, k - 1);
    var a := StoredAt(rows, seq0, k);
    assert a in after[|mid|..];
    InLaterSuffix(after, |before|, |mid|, a);
  }

  /** Every application a batch adds is a 'submitted' row taken from one of
      its rows, so it belongs to a brief every row names. */
  lemma AddedUnderBrief(before: seq<Application>, after: seq<Application>,
                        rows: seq<NewApplication>, seq0: nat, briefId: nat)
    requires AddedAreFirstNew(before, after, rows, seq0)
    requires forall k :: 0 <= k < |rows| ==> rows[k].briefId == briefId
    ensures forall i :: |before| <= i < |after| ==>
      after[i].briefId == briefId && after[i].status == Some(SubmittedStatus)
  {
    forall i | |before| <= i < |after|
      ensures after[i].briefId == briefId && after[i].status == Some(SubmittedStatus)
    {
      assert IsFirstNewRow(before, after, rows, seq0, i);
    }
  }

  /** Every row of a batch that has a submission id is on file afterwards,
      whether the batch added it or it was stored before. */
  lemma {:induction false} InsertEachOnFile(s: Store, rows: seq<NewApplication>)
    ensures forall k :: 0 <= k < |rows| && rows[k].submissionId.Some? ==>
      HasSubmission(InsertEachOrIgnore(s, rows).applications, rows[k].submissionId.value)
    decreases |rows|
  {
    if |rows| > 0 {
      var s1 := InsertApplicationOrIgnore(s, rows[0]);
      var s' := InsertEachOrIgnore(s1, rows[1..]);
      InsertEachOnFile(s1, rows[1..]);
      forall k | 0 <= k < |rows| && rows[k].submissionId.Some?
        ensures HasSubmission(s'.applications, rows[k].submissionId.value)
      {
        if k == 0 {
          var i :| 0 <= i < |s1.applications| && s1.applications[i].submissionId == rows[0].submissionId.value;
          assert s'.applications[..|s1.applications|][i] == s1.applications[i];
        } else {
          assert rows[1..][k - 1] == rows[k];
        }
      }
    }
  }

  lemma {:induction false} InsertEachValid(s: Store, rows: seq<NewApplication>)
    requires Valid(s) && forall k :: 0 <= k < |rows| ==> HasBrief(s.briefs, rows[k].briefId)
    ensures Valid(InsertEachOrIgnore(s, rows))
    decreases |rows|
  {
    if |rows| > 0 {
      var s1 := InsertApplicationOrIgnore(s, rows[0]);
      InsertApplicationValid(s, rows[0]);
      assert forall k :: 0 <= k < |rows[1..]| ==> rows[1..][k] == rows[k + 1];
      InsertEachValid(s1, rows[1..]);
    }
  }

  /** Number of rows carrying a submission id. */
  function CountSubmission(apps: seq<Application>, submissionId: string): (n: nat)
    ensures n <= |apps|
    ensures n > 0 <==> HasSubmission(apps, submissionId)
    decreases |apps|
  {
    if |apps| == 0 then 0
    else
      var rest := CountSubmission(apps[1..], submissionId);
      assert HasSubmission(apps, submissionId) <==>
        apps[0].submissionId == submissionId || HasSubmission(apps[1..], submissionId) by {
        if HasSubmission(apps, submissionId) && apps[0].submissionId != submissionId {
          var i :| 0 <= i < |apps| && apps[i].submissionId == submissionId;
          assert apps[1..][i - 1] == apps[i];
        }
        if HasSubmission(apps[1..], submissionId) {
          var i :| 0 <= i < |apps[1..]| && apps[1..][i].submissionId == submissionId;
          assert apps[i + 1] == apps[1..][i];
        }
      }
      (if apps[0].submissionId == submissionId then 1 else 0) + rest
  }

  /** Uniqueness of submission ids, counted: a stored id appears once. */
  lemma {:induction false} StoredSubmissionCountedOnce(apps: seq<Application>, counter: nat, submissionId: string)
    requires ApplicationsValid(apps, counter) && HasSubmission(apps, submissionId)
    ensures CountSubmission(apps, submissionId) == 1
    decreases |apps|
  {
    var tail := apps[1..];
    assert ApplicationsValid(tail, counter) by {
      assert forall i :: 0 <= i < |tail| ==> tail[i] == apps[i + 1];
    }
    if apps[0].submissionId == submissionId {
      forall i | 0 <= i < |tail|
        ensures tail[i].submissionId != submissionId
      {
        assert tail[i] == apps[i + 1];
      }
    } else {
      var i :| 0 <= i < |apps| && apps[i].submissionId == submissionId;
      assert tail[i - 1] == apps[i];
      StoredSubmissionCountedOnce(tail, counter, submissionId);
    }
  }

  // -------------------------------------------------------------- counting

  /** `COUNT(…)` over the rows that satisfy `p`. */
  function CountWhere<T>(rows: seq<T>, p: T -> bool): (n: nat)
    ensures n <= |rows|
    ensures n == 0 <==> forall i :: 0 <= i < |rows| ==> !p(rows[i])
    decreases |rows|
  {
    if |rows| == 0 then 0
    else
      var rest := CountWhere(rows[1..], p);
      assert forall i :: 1 <= i < |rows| ==> rows[i] == rows[1..][i - 1];
      (if p(rows[0]) then 1 else 0) + rest
  }

  lemma {:induction false} CountWhereAppend<T>(rows: seq<T>, a: T, p: T -> bool)
    ensures CountWhere(rows + [a], p) == CountWhere(rows, p) + (if p(a) then 1 else 0)
    decreases |rows|
  {
    if |rows| > 0 {
      assert (rows + [a])[1..] == rows[1..] + [a];
      CountWhereAppend(rows[1..], a, p);
    }
  }

  /** Counting is blind to the order of rows. */
  lemma {:induction false} CountWherePermutation<T>(a: seq<T>, b: seq<T>, p: T -> bool)
    requires multiset(a) == multiset(b)
    ensures CountWhere(a, p) == CountWhere(b, p)
    decreases |a|
  {
    assert |a| == |multiset(a)| == |multiset(b)| == |b|;
    if |a| > 0 {
      assert a[0] in multiset(b);
      var j :| 0 <= j < |b| && b[j] == a[0];
      var b' := b[..j] + b[j + 1..];
      Ordering.SamePermutationAfterDrop(a, b, j);
      CountWherePermutation(a[1..], b', p);
      assert b == b[..j] + ([b[j]] + b[j + 1..]);
      CountWhereSplit(b[..j], [b[j]] + b[j + 1..], p);
      CountWhereSplit(b[..j], b[j + 1..], p);
      assert ([b[j]] + b[j + 1..])[1..] == b[j + 1..];
    }
  }

  lemma {:induction false} CountWhereSplit<T>(x: seq<T>, y: seq<T>, p: T -> bool)
    ensures CountWhere(x + y, p) == CountWhere(x, p) + CountWhere(y, p)
    decreases |x|
  {
    if |x| > 0 {
      assert (x + y)[1..] == x[1..] + y;
      assert (x + y)[0] == x[0];
      CountWhereSplit(x[1..], y, p);
    } else {
      assert x + y == y;
    }
  }

  /** A weaker condition counts at least as many rows. */
  lemma {:induction false} CountWhereMonotone<T>(rows: seq<T>, p: T -> bool, p': T -> bool)
    requires forall x :: p(x) ==> p'(x)
    ensures CountWhere(rows, p) <= CountWhere(rows, p')
    decreases |rows|
  {
    if |rows| > 0 {
      CountWhereMonotone(rows[1..], p, p');
    }
  }

  /** `COUNT(a.id)` for one brief: its applications. */
  function ApplicationCount(apps: seq<Application>, briefId: nat): nat {
    CountWhere(apps, (a: Application) => a.briefId == briefId)
  }

  // ------------------------------------------------------------------ joins

  /** The rows one application contributes to an inner join with briefs: one
      for each brief whose id it references and that `pick` keeps. */
  function JoinOne<R(!new)>(a: Application, briefs: seq<Brief>, pick: (Application, Brief) -> Option<R>): (rows: seq<R>)
    ensures forall r :: r in rows <==>
      exists j :: 0 <= j < |briefs| && briefs[j].id == a.briefId && pick(a, briefs[j]) == Some(r)
    decreases |briefs|
  {
    if |briefs| == 0 then []
    else
      var rest := JoinOne(a, briefs[1..], pick);
      assert forall j :: 1 <= j < |briefs| ==> briefs[1..][j - 1] == briefs[j];
      var here := pick(a, briefs[0]);
      if briefs[0].id == a.briefId && here.Some? then [here.value] + rest else rest
  }

  /** `FROM applications a JOIN briefs b ON a.brief_id = b.id WHERE …`:
      `pick` evaluates the WHERE clause and the selected columns of a pair. */
  function Join<R(!new)>(apps: seq<Application>, briefs: seq<Brief>, pick: (Application, Brief) -> Option<R>): (rows: seq<R>)
    ensures forall r :: r in rows <==>
      exists i, j :: 0 <= i < |apps| && 0 <= j < |briefs| && briefs[j].id == apps[i].briefId && pick(apps[i], briefs[j]) == Some(r)
    decreases |apps|
  {
    if |apps| == 0 then []
    else
      assert forall i :: 1 <= i < |apps| ==> apps[1..][i - 1] == apps[i];
      JoinOne(apps[0], briefs, pick) + Join(apps[1..], briefs, pick)
  }

  /** Some brief the application references passes `pick`. */
  predicate Joined<R>(a: Application, briefs: seq<Brief>, pick: (Application, Brief) -> Option<R>) {
    exists j :: 0 <= j < |briefs| && briefs[j].id == a.briefId && pick(a, briefs[j]).Some?
  }

  /** With distinct brief ids an application meets at most one brief, so it
      contributes one row when it is joined and none otherwise. */
  lemma {:induction false} JoinOneAtMostOne<R(!new)>(a: Application, briefs: seq<Brief>, pick: (Application, Brief) -> Option<R>)
    requires forall i, j :: 0 <= i < j < |briefs| ==> briefs[i].id != briefs[j].id
    ensures |JoinOne(a, briefs, pick)| == if Joined(a, briefs, pick) then 1 else 0
    decreases |briefs|
  {
    if |briefs| > 0 {
      var rest := JoinOne(a, briefs[1..], pick);
      JoinOneAtMostOne(a, briefs[1..], pick);
      if briefs[0].id == a.briefId {
        forall j | 0 <= j < |briefs| - 1 ensures briefs[1..][j].id != a.briefId {
          assert briefs[1..][j] == briefs[j + 1];
        }
      }
      if Joined(a, briefs[1..], pick) {
        var j :| 0 <= j < |briefs[1..]| && briefs[1..][j].id == a.briefId && pick(a, briefs[1..][j]).Some?;
        assert briefs[j + 1] == briefs[1..][j];
      }
      if Joined(a, briefs, pick) && !(briefs[0].id == a.briefId && pick(a, briefs[0]).Some?) {
        var j :| 0 <= j < |briefs| && briefs[j].id == a.briefId && pick(a, briefs[j]).Some?;
        assert j > 0 && briefs[1..][j - 1] == briefs[j];
      }
    }
  }

  /** The inner join lists each joined application exactly once: its length
      is the number of applications that meet a brief passing `pick`. */
  lemma {:induction false} JoinOneRowPerApplication<R(!new)>(apps: seq<Application>, briefs: seq<Brief>, pick: (Application, Brief) -> Option<R>)
    requires forall i, j :: 0 <= i < j < |briefs| ==> briefs[i].id != briefs[j].id
    ensures |Join(apps, briefs, pick)| == CountWhere(apps, (a: Application) => Joined(a, briefs, pick))
    decreases |apps|
  {
    if |apps| > 0 {
      JoinOneAtMostOne(apps[0], briefs, pick);
      JoinOneRowPerApplication(apps[1..], briefs, pick);
    }
  }

  /** Two conditions that agree on every row count the same rows. */
  lemma {:induction false} CountWhereSame<T>(rows: seq<T>, p: T -> bool, q: T -> bool)
    requires forall i :: 0 <= i < |rows| ==> p(rows[i]) == q(rows[i])
    ensures CountWhere(rows, p) == CountWhere(rows, q)
    decreases |rows|
  {
    if |rows| > 0 {
      assert forall i :: 1 <= i < |rows| ==> rows[1..][i - 1] == rows[i];
      CountWhereSame(rows[1..], p, q);
    }
  }

  lemma {:induction false} CountWhereAll<T>(rows: seq<T>, p: T -> bool)
    requires forall i :: 0 <= i < |rows| ==> p(rows[i])
    ensures CountWhere(rows, p) == |rows|
    decreases |rows|
  {
    if |rows| > 0 {
      assert forall i :: 1 <= i < |rows| ==> rows[1..][i - 1] == rows[i];
      CountWhereAll(rows[1..], p);
    }
  }
}

=== FILE: stats.dfy ===
/** The dashboard statistics: one aggregate over `briefs b LEFT JOIN
    applications a ON b.id = a.brief_id`. A brief without applications gives
    one row whose application columns are NULL; a brief with n applications
    gives n rows. The application counts come out right, but the brief counts
    by status count rows, so a live brief with three applications counts as
    three live briefs. `StatsAsWritten` is the route as it stands;
    `AdminStats` corrects both its gate and its brief counts, which
    `IntendedStats` takes once per brief. */
module StatsRoute {
  import opened Values
  import opened Schema
  import opened Http
  import opened Replies

  const ExpiredStatus: string := "expired"
  const AcceptedStatus: string := "accepted"
  const UnsuccessfulStatus: string := "unsuccessful"

  /** One row of the LEFT JOIN: `app` is `None` for the NULL-extended row of
      a brief without applications. */
  datatype JoinedRow = JoinedRow(brief: Brief, app: Option<Application>)

  // ------------------------------------------------------------- the join

  /** The rows a brief meets in the ON clause: its applications, in rowid order. */
  function MatchingRows(b: Brief, apps: seq<Application>): (rows: seq<JoinedRow>)
    ensures |rows| == ApplicationCount(apps, b.id)
    ensures forall r :: r in rows ==> r.brief == b && r.app.Some? && r.app.value in apps && r.app.value.briefId == b.id
    decreases |apps|
  {
    if |apps| == 0 then []
    else
      var rest := MatchingRows(b, apps[1..]);
      if apps[0].briefId == b.id then [JoinedRow(b, Some(apps[0]))] + rest else rest
  }

  function LeftJoinOne(b: Brief, apps: seq<Application>): (rows: seq<JoinedRow>)
    ensures |rows| == if ApplicationCount(apps, b.id) == 0 then 1 else ApplicationCount(apps, b.id)
    ensures forall r :: r in rows ==> r.brief == b
    ensures forall r :: r in rows && r.app.Some? ==> r.app.value in apps && r.app.value.briefId == b.id
  {
    var m := MatchingRows(b, apps);
    if |m| == 0 then [JoinedRow(b, None)] else m
  }

  /** `FROM briefs b LEFT JOIN applications a ON b.id = a.brief_id`. */
  function LeftJoin(briefs: seq<Brief>, apps: seq<Application>): (rows: seq<JoinedRow>)
    ensures forall r :: r in rows ==> r.brief in briefs
    decreases |briefs|
  {
    if |briefs| == 0 then []
    else LeftJoinOne(briefs[0], apps) + LeftJoin(briefs[1..], apps)
  }

  /** What makes the join a LEFT join: every brief occurs, with or without
      applications, and an application only next to the brief it references. */
  lemma {:induction false} LeftJoinKeepsEveryBrief(briefs: seq<Brief>, apps: seq<Application>)
    ensures forall r :: r in LeftJoin(briefs, apps) && r.app.Some? ==> r.app.value in apps && r.app.value.briefId == r.brief.id
    ensures forall j :: 0 <= j < |briefs| ==> exists r :: r in LeftJoin(briefs, apps) && r.brief == briefs[j]
    decreases |briefs|
  {
    if |briefs| > 0 {
      var one := LeftJoinOne(briefs[0], apps);
      var rest := LeftJoin(briefs[1..], apps);
      LeftJoinKeepsEveryBrief(briefs[1..], apps);
      assert one[0] in one;
      assert forall j :: 1 <= j < |briefs| ==> briefs[1..][j - 1] == briefs[j];
      assert LeftJoin(briefs, apps) == one + rest;
    }
  }

  // --------------------------------------------------------- aggregations

  /** `b.status = …` inside `COUNT(CASE WHEN … THEN 1 END)`. */
  function BriefIs(status: string): JoinedRow -> bool {
    (r: JoinedRow) => r.brief.status == Some(status)
  }

  /** A condition on `a`, false on the NULL-extended row (`a.id` and
      `a.status` are NULL there). */
  function AppWhere(p: Application -> bool): JoinedRow -> bool {
    (r: JoinedRow) => r.app.Some? && p(r.app.value)
  }

  function AnyApplication(): Application -> bool {
    (a: Application) => true
  }

  function StatusIs(status: string): Application -> bool {
    (a: Application) => a.status == Some(status)
  }

  /** `COUNT(DISTINCT b.id)`. */
  function BriefIds(rows: seq<JoinedRow>): set<nat> {
    set r | r in rows :: r.brief.id
  }

  /** The query as written. */
  function QueryStats(s: Store): (st: Stats)
    ensures st.pendingApplications <= st.totalApplications
    ensures st.acceptedApplications <= st.totalApplications
    ensures st.unsuccessfulApplications <= st.totalApplications
  {
    var rows := LeftJoin(s.briefs, s.applications);
    CountWhereMonotone(rows, AppWhere(StatusIs(SubmittedStatus)), AppWhere(AnyApplication()));
    CountWhereMonotone(rows, AppWhere(StatusIs(AcceptedStatus)), AppWhere(AnyApplication()));
    CountWhereMonotone(rows, AppWhere(StatusIs(UnsuccessfulStatus)), AppWhere(AnyApplication()));
    Stats(
      |BriefIds(rows)|,
      CountWhere(rows, BriefIs(LiveStatus)),
      CountWhere(rows, BriefIs(ExpiredStatus)),
      CountWhere(rows, AppWhere(AnyApplication())),
      CountWhere(rows, AppWhere(StatusIs(SubmittedStatus))),
      CountWhere(rows, AppWhere(StatusIs(AcceptedStatus))),
      CountWhere(rows, AppWhere(StatusIs(UnsuccessfulStatus))))
  }

  /** The ids of the briefs satisfying `q`, as a set. */
  function IdsWhere(briefs: seq<Brief>, q: Brief -> bool): set<nat> {
    set b | b in briefs && q(b) :: b.id
  }

  function HasStatus(status: string): Brief -> bool {
    (b: Brief) => b.status == Some(status)
  }

  function AnyBrief(): Brief -> bool {
    (b: Brief) => true
  }

  /** The counts the dashboard means: the brief counts are taken over the
      briefs table alone (`SELECT COUNT(*) … FROM briefs`), so each brief
      counts once; the application counts are those of the query. */
  function IntendedStats(s: Store): (st: Stats)
    ensures st.liveBriefs + st.expiredBriefs <= st.totalBriefs
    ensures st.totalBriefs == |s.briefs|
    ensures st.totalApplications == QueryStats(s).totalApplications
    ensures st.pendingApplications <= st.totalApplications
    ensures Valid(s) ==>
      && st.liveBriefs == |IdsWhere(s.briefs, HasStatus(LiveStatus))|
      && st.expiredBriefs == |IdsWhere(s.briefs, HasStatus(ExpiredStatus))|
  {
    StatusCountsFit(s.briefs);
    StatusIdsCounted(s.briefs);
    QueryStats(s).(
      totalBriefs := |s.briefs|,
      liveBriefs := CountWhere(s.briefs, HasStatus(LiveStatus)),
      expiredBriefs := CountWhere(s.briefs, HasStatus(ExpiredStatus)))
  }

  /** `GET /admin/stats` as written: the admin gate admits any verified
      token, and the reply is the query's aggregate. */
  function StatsAsWritten(s: Store, header: Option<string>, verify: string -> Option<Claims>): (r: Reply)
    ensures r.status == 200 <==> BearerToken(header).Some? && verify(BearerToken(header).value).Some?
    ensures r.status != 200 ==> r.status == 401 && r.body.Failure?
    ensures BearerToken(header).None? ==> r == Reply(401, Failure(NoTokenProvided))
    ensures r.status == 200 ==> r.body.StatsReport? && r.body.stats == QueryStats(s)
  {
    match AuthenticateAdmin(header, verify)
    case Refused(message) => Reply(401, Failure(message))
    case Admitted(_) => Reply(200, StatsReport(QueryStats(s)))
  }

  /** The route with both corrections: only an admin token is admitted, and
      the brief counts count each brief once. */
  function AdminStats(s: Store, header: Option<string>, verify: string -> Option<Claims>): (r: Reply)
    ensures r.status == 200 <==>
      BearerToken(header).Some? && verify(BearerToken(header).value).Some? &&
      verify(BearerToken(header).value).value.AdminClaims?
    ensures r.status != 200 ==> r.status == 401 && r.body.Failure?
    ensures r.status == 200 ==> r.body.StatsReport? && r.body.stats.totalBriefs == |s.briefs|
    ensures r.status == 200 ==> r.body.stats.liveBriefs + r.body.stats.expiredBriefs <= r.body.stats.totalBriefs
    ensures r.status == 200 && Valid(s) ==>
      && r.body.stats.liveBriefs == |IdsWhere(s.briefs, HasStatus(LiveStatus))|
      && r.body.stats.expiredBriefs == |IdsWhere(s.briefs, HasStatus(ExpiredStatus))|
  {
    match AuthenticateAdminOnly(header, verify)
    case Refused(message) => Reply(401, Failure(message))
    case Admitted(_) => Reply(200, StatsReport(IntendedStats(s)))
  }

  /** Wherever the corrected route answers, the written one answers too, in a
      consistent store with the same brief total and application counts and a
      live count at least as large. */
  lemma CorrectedStatsRefinesWritten(s: Store, header: Option<string>, verify: string -> Option<Claims>)
    requires Valid(s)
    requires AdminStats(s, header, verify).status == 200
    ensures var w := StatsAsWritten(s, header, verify).body.stats;
      var c := AdminStats(s, header, verify).body.stats;
      && StatsAsWritten(s, header, verify).status == 200
      && c.totalBriefs == w.totalBriefs
      && c.totalApplications == w.totalApplications == |s.applications|
      && c.pendingApplications == w.pendingApplications
      && c.acceptedApplications == w.acceptedApplications
      && c.unsuccessfulApplications == w.unsuccessfulApplications
      && c.liveBriefs <= w.liveBriefs && c.expiredBriefs <= w.expiredBriefs
  {
    IntendedAgreesWhereQueryIsRight(s);
  }

  /** A user token reaches the statistics through the written gate but not
      through the corrected one. */
  lemma UserTokenRefusedByStats(s: Store, header: Option<string>, verify: string -> Option<Claims>)
    requires BearerToken(header).Some? && verify(BearerToken(header).value).Some?
    requires verify(BearerToken(header).value).value.UserClaims?
    ensures StatsAsWritten(s, header, verify) == Reply(200, StatsReport(QueryStats(s)))
    ensures AdminStats(s, header, verify) == Reply(401, Failure(InvalidToken))
  {
  }

  // ----------------------------------------------------- counting lemmas

  /** No brief is both live and expired. */
  lemma {:induction false} StatusCountsFit(briefs: seq<Brief>)
    ensures CountWhere(briefs, HasStatus(LiveStatus)) + CountWhere(briefs, HasStatus(ExpiredStatus)) <= |briefs|
    decreases |briefs|
  {
    if |briefs| > 0 {
      StatusCountsFit(briefs[1..]);
    }
  }

  /** The applications of one brief that satisfy `p`. */
  function OfBriefWhere(id: nat, p: Application -> bool): Application -> bool {
    (a: Application) => a.briefId == id && p(a)
  }

  lemma {:induction false} MatchingRowsCount(b: Brief, apps: seq<Application>, p: Application -> bool)
    ensures CountWhere(MatchingRows(b, apps), AppWhere(p)) == CountWhere(apps, OfBriefWhere(b.id, p))
    decreases |apps|
  {
    if |apps| > 0 {
      MatchingRowsCount(b, apps[1..], p);
    }
  }

  lemma LeftJoinOneCount(b: Brief, apps: seq<Application>, p: Application -> bool)
    ensures CountWhere(LeftJoinOne(b, apps), AppWhere(p)) == CountWhere(apps, OfBriefWhere(b.id, p))
  {
    MatchingRowsCount(b, apps, p);
    if |MatchingRows(b, apps)| == 0 {
      assert CountWhere(MatchingRows(b, apps), AppWhere(p)) == 0;
      assert CountWhere([JoinedRow(b, None)], AppWhere(p)) == 0;
    }
  }

  /** Σ over the briefs of the number of their applications satisfying `p`. */
  function PerBrief(briefs: seq<Brief>, apps: seq<Application>, p: Application -> bool): nat
    decreases |briefs|
  {
    if |briefs| == 0 then 0
    else CountWhere(apps, OfBriefWhere(briefs[0].id, p)) + PerBrief(briefs[1..], apps, p)
  }

  lemma {:induction false} LeftJoinCount(briefs: seq<Brief>, apps: seq<Application>, p: Application -> bool)
    ensures CountWhere(LeftJoin(briefs, apps), AppWhere(p)) == PerBrief(briefs, apps, p)
    decreases |briefs|
  {
    if |briefs| > 0 {
      CountWhereSplit(LeftJoinOne(briefs[0], apps), LeftJoin(briefs[1..], apps), AppWhere(p));
      LeftJoinOneCount(briefs[0], apps, p);
      LeftJoinCount(briefs[1..], apps, p);
    }
  }

  /** Number of briefs carrying an id. */
  function BriefsWithId(briefs: seq<Brief>, id: nat): (n: nat)
    ensures n == 0 <==> !HasBrief(briefs, id)
    decreases |briefs|
  {
    if |briefs| == 0 then 0
    else
      assert forall j :: 1 <= j < |briefs| ==> briefs[1..][j - 1] == briefs[j];
      (if briefs[0].id == id then 1 else 0) + BriefsWithId(briefs[1..], id)
  }

  ghost predicate IdsIncrease(briefs: seq<Brief>) {
    forall i, j :: 0 <= i < j < |briefs| ==> briefs[i].id < briefs[j].id
  }

  lemma {:induction false} IdNamesOneBrief(briefs: seq<Brief>, id: nat)
    requires IdsIncrease(briefs) && HasBrief(briefs, id)
    ensures BriefsWithId(briefs, id) == 1
    decreases |briefs|
  {
    var rest := briefs[1..];
    assert IdsIncrease(rest) by {
      assert forall j :: 0 <= j < |rest| ==> rest[j] == briefs[j + 1];
    }
    if briefs[0].id == id {
      assert !HasBrief(rest, id) by {
        assert forall j :: 0 <= j < |rest| ==> rest[j] == briefs[j + 1];
      }
    } else {
      var j :| 0 <= j < |briefs| && briefs[j].id == id;
      assert rest[j - 1] == briefs[j];
      IdNamesOneBrief(rest, id);
    }
  }

  lemma {:induction false} PerBriefAppend(briefs: seq<Brief>, apps: seq<Application>, a: Application, p: Application -> bool)
    ensures PerBrief(briefs, apps + [a], p) ==
      PerBrief(briefs, apps, p) + (if p(a) then BriefsWithId(briefs, a.briefId) else 0)
    decreases |briefs|
  {
    if |briefs| > 0 {
      CountWhereAppend(apps, a, OfBriefWhere(briefs[0].id, p));
      PerBriefAppend(briefs[1..], apps, a, p);
    }
  }

  lemma {:induction false} PerBriefNone(briefs: seq<Brief>, p: Application -> bool)
    ensures PerBrief(briefs, [], p) == 0
    decreases |briefs|
  {
    if |briefs| > 0 {
      PerBriefNone(briefs[1..], p);
    }
  }

  /** When every application's brief exists exactly once, summing over the
      briefs counts every application once. */
  lemma {:induction false} PerBriefCountsEachOnce(briefs: seq<Brief>, apps: seq<Application>, p: Application -> bool)
    requires IdsIncrease(briefs)
    requires forall i :: 0 <= i < |apps| ==> HasBrief(briefs, apps[i].briefId)
    ensures PerBrief(briefs, apps, p) == CountWhere(apps, p)
    decreases |apps|
  {
    if |apps| == 0 {
      PerBriefNone(briefs, p);
    } else {
      var n := |apps| - 1;
      var init := apps[..n];
      assert apps == init + [apps[n]];
      assert forall i :: 0 <= i < |init| ==> init[i] == apps[i];
      PerBriefCountsEachOnce(briefs, init, p);
      PerBriefAppend(briefs, init, apps[n], p);
      CountWhereAppend(init, apps[n], p);
      IdNamesOneBrief(briefs, apps[n].briefId);
    }
  }

  lemma {:induction false} BriefIdsSplit(x: seq<JoinedRow>, y: seq<JoinedRow>)
    ensures BriefIds(x + y) == BriefIds(x) + BriefIds(y)
  {
    forall id | id in BriefIds(x + y) ensures id in BriefIds(x) + BriefIds(y) {
      var r :| r in x + y && r.brief.id == id;
      assert r in x || r in y;
    }
  }

  lemma {:induction false} BriefIdsOfLeftJoin(briefs: seq<Brief>, apps: seq<Application>)
    ensures BriefIds(LeftJoin(briefs, apps)) == IdsWhere(briefs, AnyBrief())
    decreases |briefs|
  {
    if |briefs| > 0 {
      var one := LeftJoinOne(briefs[0], apps);
      BriefIdsSplit(one, LeftJoin(briefs[1..], apps));
      BriefIdsOfLeftJoin(briefs[1..], apps);
      assert one[0] in one;
      assert BriefIds(one) == {briefs[0].id};
      IdsWhereCons(briefs, AnyBrief());
    }
  }

  /** With distinct ids, counting distinct ids is counting briefs. */
  lemma {:induction false} IdsWhereCounted(briefs: seq<Brief>, q: Brief -> bool)
    requires IdsIncrease(briefs)
    ensures |IdsWhere(briefs, q)| == CountWhere(briefs, q)
    decreases |briefs|
  {
    if |briefs| > 0 {
      var rest := briefs[1..];
      assert IdsIncrease(rest) by {
        assert forall j :: 0 <= j < |rest| ==> rest[j] == briefs[j + 1];
      }
      IdsWhereCounted(rest, q);
      IdsWhereCons(briefs, q);
      HeadIdFresh(briefs, q);
    }
  }

  /** With increasing ids, counting the briefs of a status counts their
      distinct ids. */
  lemma StatusIdsCounted(briefs: seq<Brief>)
    ensures IdsIncrease(briefs) ==>
      && |IdsWhere(briefs, HasStatus(LiveStatus))| == CountWhere(briefs, HasStatus(LiveStatus))
      && |IdsWhere(briefs, HasStatus(ExpiredStatus))| == CountWhere(briefs, HasStatus(ExpiredStatus))
  {
    if IdsIncrease(briefs) {
      IdsWhereCounted(briefs, HasStatus(LiveStatus));
      IdsWhereCounted(briefs, HasStatus(ExpiredStatus));
    }
  }

  lemma IdsWhereCons(briefs: seq<Brief>, q: Brief -> bool)
    requires |briefs| > 0
    ensures IdsWhere(briefs, q) == (if q(briefs[0]) then {briefs[0].id} else {}) + IdsWhere(briefs[1..], q)
  {
    var rest := briefs[1..];
    forall id | id in IdsWhere(briefs, q)
      ensures id in (if q(briefs[0]) then {briefs[0].id} else {}) + IdsWhere(rest, q)
    {
      var b :| b in briefs && q(b) && b.id == id;
      var j :| 0 <= j < |briefs| && briefs[j] == b;
      if j > 0 {
        assert rest[j - 1] == b;
      }
    }
    forall id | id in IdsWhere(rest, q) ensures id in IdsWhere(briefs, q) {
      var b :| b in rest && q(b) && b.id == id;
      var j :| 0 <= j < |rest| && rest[j] == b;
      assert briefs[j + 1] == b;
    }
  }

  lemma HeadIdFresh(briefs: seq<Brief>, q: Brief -> bool)
    requires |briefs| > 0 && IdsIncrease(briefs)
    ensures briefs[0].id !in IdsWhere(briefs[1..], q)
  {
    var rest := briefs[1..];
    forall b | b in rest ensures b.id != briefs[0].id {
      var j :| 0 <= j < |rest| && rest[j] == b;
      assert rest[j] == briefs[j + 1];
    }
  }

  /** Rows a status contributes: Σ over the briefs with that status of their
      row count in the LEFT JOIN (at least one each). */
  function RowsPerBrief(briefs: seq<Brief>, apps: seq<Application>, status: string): nat
    decreases |briefs|
  {
    if |briefs| == 0 then 0
    else
      (if briefs[0].status == Some(status) then |LeftJoinOne(briefs[0], apps)| else 0)
        + RowsPerBrief(briefs[1..], apps, status)
  }

  lemma {:induction false} StatusRowsPerBrief(briefs: seq<Brief>, apps: seq<Application>, status: string)
    ensures CountWhere(LeftJoin(briefs, apps), BriefIs(status)) == RowsPerBrief(briefs, apps, status)
    decreases |briefs|
  {
    if |briefs| > 0 {
      var one := LeftJoinOne(briefs[0], apps);
      CountWhereSplit(one, LeftJoin(briefs[1..], apps), BriefIs(status));
      StatusRowsPerBrief(briefs[1..], apps, status);
      SameBriefRows(one, briefs[0], BriefIs(status));
    }
  }

  lemma {:induction false} SameBriefRows(rows: seq<JoinedRow>, b: Brief, q: JoinedRow -> bool)
    requires forall r :: r in rows ==> r.brief == b
    requires forall r :: r in rows ==> q(r) == q(JoinedRow(b, None))
    ensures CountWhere(rows, q) == if q(JoinedRow(b, None)) then |rows| else 0
    decreases |rows|
  {
    if |rows| > 0 {
      assert rows[0] in rows;
      assert forall r :: r in rows[1..] ==> r in rows;
      SameBriefRows(rows[1..], b, q);
    }
  }

  lemma {:induction false} RowsPerBriefBounds(briefs: seq<Brief>, apps: seq<Application>, status: string)
    ensures RowsPerBrief(briefs, apps, status) >= CountWhere(briefs, HasStatus(status))
    ensures (forall j :: 0 <= j < |briefs| && briefs[j].status == Some(status) ==> ApplicationCount(apps, briefs[j].id) <= 1)
      ==> RowsPerBrief(briefs, apps, status) == CountWhere(briefs, HasStatus(status))
    decreases |briefs|
  {
    if |briefs| > 0 {
      assert forall j :: 1 <= j < |briefs| ==> briefs[1..][j - 1] == briefs[j];
      RowsPerBriefBounds(briefs[1..], apps, status);
    }
  }

  // ------------------------------------------------------------ the claims

  /** What the application columns of the query count, in a consistent
      store: every application once, and those with each status. */
  lemma QueryCountsApplications(s: Store)
    requires Valid(s)
    ensures QueryStats(s).totalApplications == |s.applications|
    ensures QueryStats(s).pendingApplications == CountWhere(s.applications, StatusIs(SubmittedStatus))
    ensures QueryStats(s).acceptedApplications == CountWhere(s.applications, StatusIs(AcceptedStatus))
    ensures QueryStats(s).unsuccessfulApplications == CountWhere(s.applications, StatusIs(UnsuccessfulStatus))
  {
    var briefs, apps := s.briefs, s.applications;
    forall p | p in {AnyApplication(), StatusIs(SubmittedStatus), StatusIs(AcceptedStatus), StatusIs(UnsuccessfulStatus)}
      ensures CountWhere(LeftJoin(briefs, apps), AppWhere(p)) == CountWhere(apps, p)
    {
      LeftJoinCount(briefs, apps, p);
      PerBriefCountsEachOnce(briefs, apps, p);
    }
    AllCounted(apps);
  }

  lemma {:induction false} AllCounted(apps: seq<Application>)
    ensures CountWhere(apps, AnyApplication()) == |apps|
    decreases |apps|
  {
    if |apps| > 0 {
      AllCounted(apps[1..]);
    }
  }

  /** `COUNT(DISTINCT b.id)` is the number of briefs in a consistent store. */
  lemma QueryCountsBriefs(s: Store)
    requires Valid(s)
    ensures QueryStats(s).totalBriefs == |s.briefs|
  {
    BriefIdsOfLeftJoin(s.briefs, s.applications);
    IdsWhereCounted(s.briefs, AnyBrief());
    AllBriefsCounted(s.briefs);
  }

  lemma {:induction false} AllBriefsCounted(briefs: seq<Brief>)
    ensures CountWhere(briefs, AnyBrief()) == |briefs|
    decreases |briefs|
  {
    if |briefs| > 0 {
      AllBriefsCounted(briefs[1..]);
    }
  }

  /** The as-written live count: each live brief counts once per application
      (once if it has none). It is never below the number of live briefs and
      equals it exactly when no live brief has two applications or more. */
  lemma QueryStatusCountsAreRowCounts(s: Store)
    ensures QueryStats(s).liveBriefs == RowsPerBrief(s.briefs, s.applications, LiveStatus)
    ensures QueryStats(s).liveBriefs >= CountWhere(s.briefs, HasStatus(LiveStatus))
    ensures (forall j :: 0 <= j < |s.briefs| && s.briefs[j].status == Some(LiveStatus) ==> ApplicationCount(s.applications, s.briefs[j].id) <= 1)
      ==> QueryStats(s).liveBriefs == CountWhere(s.briefs, HasStatus(LiveStatus))
    ensures QueryStats(s).expiredBriefs == RowsPerBrief(s.briefs, s.applications, ExpiredStatus)
    ensures QueryStats(s).expiredBriefs >= CountWhere(s.briefs, HasStatus(ExpiredStatus))
    ensures (forall j :: 0 <= j < |s.briefs| && s.briefs[j].status == Some(ExpiredStatus) ==> ApplicationCount(s.applications, s.briefs[j].id) <= 1)
      ==> QueryStats(s).expiredBriefs == CountWhere(s.briefs, HasStatus(ExpiredStatus))
  {
    StatusRowsPerBrief(s.briefs, s.applications, LiveStatus);
    RowsPerBriefBounds(s.briefs, s.applications, LiveStatus);
    StatusRowsPerBrief(s.briefs, s.applications, ExpiredStatus);
    RowsPerBriefBounds(s.briefs, s.applications, ExpiredStatus);
  }

  /** A store with one brief of the given status and two applications to it. */
  function OneBriefTwoApplications(status: string): Store {
    var b := Brief(1, "form", None, "Brief", None, None, None, None, Some(status), "2024-01-01");
    var a1 := Application(1, 1, "s1", "a@x", "", "", "", Some(SubmittedStatus), None, None, "{}");
    var a2 := Application(2, 1, "s2", "b@x", "", "", "", Some(SubmittedStatus), None, None, "{}");
    Store([], [b], [a1, a2], 0, 1, 2)
  }

  lemma OneBriefTwoApplicationsValid(status: string)
    ensures Valid(OneBriefTwoApplications(status))
  {
    var s := OneBriefTwoApplications(status);
    assert HasBrief(s.briefs, 1) by { assert s.briefs[0].id == 1; }
  }

  /** The brief meets two LEFT JOIN rows, one per application. */
  lemma OneBriefTwoApplicationsRows(status: string)
    ensures var s := OneBriefTwoApplications(status);
      RowsPerBrief(s.briefs, s.applications, status) == 2
  {
    var s := OneBriefTwoApplications(status);
    var apps := s.applications;
    assert apps[1..] == [apps[1]];
    assert ApplicationCount([apps[1]][1..], 1) == 0;
    assert ApplicationCount(apps, 1) == 2;
    assert RowsPerBrief(s.briefs[1..], apps, status) == 0;
  }

  /** One live brief with two applications: the query reports two live
      briefs out of one brief in total. */
  lemma LiveBriefCountedPerApplication()
    ensures var b := Brief(1, "form", None, "Brief", None, None, None, None, Some(LiveStatus), "2024-01-01");
      var a1 := Application(1, 1, "s1", "a@x", "", "", "", Some(SubmittedStatus), None, None, "{}");
      var a2 := Application(2, 1, "s2", "b@x", "", "", "", Some(SubmittedStatus), None, None, "{}");
      var s := Store([], [b], [a1, a2], 0, 1, 2);
      Valid(s) && QueryStats(s).totalBriefs == 1 && QueryStats(s).liveBriefs == 2
  {
    var s := OneBriefTwoApplications(LiveStatus);
    OneBriefTwoApplicationsValid(LiveStatus);
    QueryCountsBriefs(s);
    QueryStatusCountsAreRowCounts(s);
    OneBriefTwoApplicationsRows(LiveStatus);
  }

  /** In a consistent store the corrected total agrees with the query's
      `COUNT(DISTINCT b.id)`, every application is counted, and the
      corrected live count never exceeds the query's. */
  lemma IntendedAgreesWhereQueryIsRight(s: Store)
    requires Valid(s)
    ensures IntendedStats(s).totalBriefs == QueryStats(s).totalBriefs
    ensures IntendedStats(s).totalApplications == |s.applications|
    ensures IntendedStats(s).liveBriefs <= QueryStats(s).liveBriefs
    ensures IntendedStats(s).expiredBriefs <= QueryStats(s).expiredBriefs
    ensures (forall j :: 0 <= j < |s.briefs| && s.briefs[j].status == Some(LiveStatus) ==> ApplicationCount(s.applications, s.briefs[j].id) <= 1)
      ==> IntendedStats(s).liveBriefs == QueryStats(s).liveBriefs
  {
    QueryCountsBriefs(s);
    QueryStatusCountsAreRowCounts(s);
    QueryCountsApplications(s);
  }

  /** The same defect in the expired count: one expired brief with two
      applications is reported as two expired briefs out of one. */
  lemma ExpiredBriefCountedPerApplication()
    ensures var b := Brief(1, "form", None, "Brief", None, None, None, None, Some(ExpiredStatus), "2024-01-01");
      var a1 := Application(1, 1, "s1", "a@x", "", "", "", Some(SubmittedStatus), None, None, "{}");
      var a2 := Application(2, 1, "s2", "b@x", "", "", "", Some(SubmittedStatus), None, None, "{}");
      var s := Store([], [b], [a1, a2], 0, 1, 2);
      Valid(s) && QueryStats(s).totalBriefs == 1 && QueryStats(s).expiredBriefs == 2
  {
    var s := OneBriefTwoApplications(ExpiredStatus);
    OneBriefTwoApplicationsValid(ExpiredStatus);
    QueryCountsBriefs(s);
    QueryStatusCountsAreRowCounts(s);
    OneBriefTwoApplicationsRows(ExpiredStatus);
  }

  /** The corrected counts on the store the query miscounts: one brief in
      total, and it is counted once as live (or once as expired). */
  lemma IntendedCountsEachBriefOnce()
    ensures var b := Brief(1, "form", None, "Brief", None, None, None, None, Some(LiveStatus), "2024-01-01");
      var a1 := Application(1, 1, "s1", "a@x", "", "", "", Some(SubmittedStatus), None, None, "{}");
      var a2 := Application(2, 1, "s2", "b@x", "", "", "", Some(SubmittedStatus), None, None, "{}");
      var s := Store([], [b], [a1, a2], 0, 1, 2);
      IntendedStats(s).totalBriefs == 1 && IntendedStats(s).liveBriefs == 1 && IntendedStats(s).expiredBriefs == 0
    ensures var b := Brief(1, "form", None, "Brief", None, None, None, None, Some(ExpiredStatus), "2024-01-01");
      var a1 := Application(1, 1, "s1", "a@x", "", "", "", Some(SubmittedStatus), None, None, "{}");
      var a2 := Application(2, 1, "s2", "b@x", "", "", "", Some(SubmittedStatus), None, None, "{}");
      var s := Store([], [b], [a1, a2], 0, 1, 2);
      IntendedStats(s).totalBriefs == 1 && IntendedStats(s).liveBriefs == 0 && IntendedStats(s).expiredBriefs == 1
  {
    OneBriefCounted(OneBriefTwoApplications(LiveStatus).briefs);
    OneBriefCounted(OneBriefTwoApplications(ExpiredStatus).briefs);
  }

  lemma OneBriefCounted(briefs: seq<Brief>)
    requires |briefs| == 1
    ensures CountWhere(briefs, HasStatus(LiveStatus)) == (if briefs[0].status == Some(LiveStatus) then 1 else 0)
    ensures CountWhere(briefs, HasStatus(ExpiredStatus)) == (if briefs[0].status == Some(ExpiredStatus) then 1 else 0)
  {
    assert briefs[1..] == [];
  }
}

=== FILE: tally.dfy ===
/** What the server receives from the forms provider (Tally). The HTTP client
    itself is outside the model: its answers are inputs. */
module Tally {
  import opened Values
  import opened Fields

  /** A form descriptor from `GET /forms`; the server only reads its id and
      passes every other attribute through. */
  datatype Form = Form(id: string, name: string)

  /** One entry of `GET /forms/:id/submissions`: `id`, the field bag
      (`submission.fields || {}` is already applied), `createdAt`, and the
      JSON text of the whole submission as stored in `raw_tally_data`. */
  datatype Submission = Submission(id: Option<string>, fields: FieldBag, createdAt: Option<string>, raw: string)

  /** One request to the provider: it failed (network or non-2xx), or it
      answered with a body whose `data` array may be missing. */
  datatype Fetch<T> = FetchFailed | Fetched(data: Option<seq<T>>)

  type FormsFetch = Fetch<Form>
  type SubmissionFetch = Fetch<Submission>
}

=== FILE: users.dfy ===
/** Logins and the applicant's own listing. Admin login compares the password
    through an oracle over the stored hash (bcrypt is outside the model); user
    login needs no password, only an email that some application carries. A
    signed token is represented by its claims, and `verify` is the token
    check (signature and expiry) as an oracle. */
module UserRoutes {
  import opened Values
  import opened Ordering
  import opened Schema
  import opened Http
  import opened Replies

  /** Row i is the first admin with that username. */
  ghost predicate FirstAdminNamed(admins: seq<Admin>, username: string, i: int) {
    && 0 <= i < |admins|
    && admins[i].username == username
    && forall k :: 0 <= k < i ==> admins[k].username != username
  }

  /** The login reply names admin i, the first with that username. */
  ghost predicate LoggedInAs(admins: seq<Admin>, username: string, i: int, body: Body)
    requires body.AdminLoggedIn? && body.token.AdminClaims?
  {
    FirstAdminNamed(admins, username, i) && body.token.adminId == admins[i].id && body.username == admins[i].username
  }

  /** `SELECT * FROM admins WHERE username = ?` through `db.get`: the first
      matching row. A missing username is bound as NULL and matches nothing. */
  function FindAdmin(admins: seq<Admin>, username: Option<string>): (r: Option<Admin>)
    ensures r.Some? <==> username.Some? && HasUsername(admins, username.value)
    ensures r.Some? ==> exists i :: FirstAdminNamed(admins, username.value, i) && admins[i] == r.value
    decreases |admins|
  {
    if username.None? || |admins| == 0 then None
    else if admins[0].username == username.value then
      assert FirstAdminNamed(admins, username.value, 0);
      Some(admins[0])
    else
      var r := FindAdmin(admins[1..], username);
      assert forall i :: 1 <= i < |admins| ==> admins[1..][i - 1] == admins[i];
      assert forall i :: FirstAdminNamed(admins[1..], username.value, i) ==> FirstAdminNamed(admins, username.value, i + 1);
      r
  }

  /** `POST /admin/login`: `passwordMatches` is bcrypt's comparison of the
      submitted password with a stored hash. Only the first admin with the
      username is tried. */
  function AdminLogin(s: Store, username: Option<string>, passwordMatches: string -> bool): (r: Reply)
    ensures r.status == 200 || r == Reply(401, Failure(InvalidCredentials))
    ensures r.status == 200 <==> (username.Some? &&
      exists i :: FirstAdminNamed(s.admins, username.value, i) && passwordMatches(s.admins[i].passwordHash))
    ensures r.status == 200 ==> (
      && r.body.AdminLoggedIn? && r.body.token.AdminClaims?
      && exists i :: LoggedInAs(s.admins, username.value, i, r.body))
  {
    match FindAdmin(s.admins, username)
    case None => Reply(401, Failure(InvalidCredentials))
    case Some(a) =>
      assert forall i, i' :: FirstAdminNamed(s.admins, username.value, i) && FirstAdminNamed(s.admins, username.value, i') ==> i == i';
      if !passwordMatches(a.passwordHash) then Reply(401, Failure(InvalidCredentials))
      else
        var body := AdminLoggedIn(AdminClaims(a.id), a.username);
        assert forall i :: FirstAdminNamed(s.admins, username.value, i) && s.admins[i] == a ==> LoggedInAs(s.admins, username.value, i, body);
        Reply(200, body)
  }

  /** The startup seed makes its admin able to log in with the seeded
      password, when no admin had that username before. */
  lemma SeededAdminCanLogIn(s: Store, username: string, hash: string, passwordMatches: string -> bool)
    requires !HasUsername(s.admins, username)
    requires passwordMatches(hash)
    ensures var r := AdminLogin(SeedAdmin(s, username, hash), Some(username), passwordMatches);
      r.status == 200 && r.body.AdminLoggedIn? && r.body.username == username
  {
    var s' := SeedAdmin(s, username, hash);
    var n := |s.admins|;
    assert forall k :: 0 <= k < n ==> s'.admins[k] == s.admins[k];
    assert FirstAdminNamed(s'.admins, username, n);
  }

  predicate HasEmail(apps: seq<Application>, email: string) {
    exists i :: 0 <= i < |apps| && apps[i].email == email
  }

  /** `POST /user/login`: succeeds iff some application carries exactly that
      email, and the token carries the email. A missing email is bound as
      NULL and finds nothing. */
  function UserLogin(s: Store, email: Option<string>): (r: Reply)
    ensures r.status == 200 <==> email.Some? && HasEmail(s.applications, email.value)
    ensures r.status != 200 ==> r == Reply(404, Failure(NoApplicationsForEmail))
    ensures r.status == 200 ==> r.body == UserLoggedIn(UserClaims(email.value), email.value)
  {
    if email.Some? && CountWhere(s.applications, (a: Application) => a.email == email.value) > 0 then
      Reply(200, UserLoggedIn(UserClaims(email.value), email.value))
    else
      Reply(404, Failure(NoApplicationsForEmail))
  }

  /** The selected columns of the user listing, for a pair that matches the
      claimed email. `decoded.email` is undefined for an admin token, which
      binds NULL and matches nothing. */
  function PickForEmail(email: Option<string>): (Application, Brief) -> Option<UserApplicationRow> {
    (a: Application, b: Brief) =>
      if email.Some? && a.email == email.value
      then Some(UserApplicationRow(a, b.title, b.location, b.tier)) else None
  }

  function UserSubmittedAtKey(r: UserApplicationRow): Option<string> {
    r.application.submittedAt
  }

  /** A row of the user listing: an application with exactly that email,
      joined with its brief. */
  ghost predicate OwnRow(s: Store, email: Option<string>, row: UserApplicationRow) {
    exists i, j :: 0 <= i < |s.applications| && 0 <= j < |s.briefs| && OwnPair(email, s.applications[i], s.briefs[j], row)
  }

  predicate OwnPair(email: Option<string>, a: Application, b: Brief, row: UserApplicationRow) {
    && b.id == a.briefId
    && email.Some? && a.email == email.value
    && row == UserApplicationRow(a, b.title, b.location, b.tier)
  }

  /** The query of the user listing for the email a token claims. */
  function RowsForEmail(s: Store, email: Option<string>): (rows: seq<UserApplicationRow>)
    ensures SortedDesc(rows, UserSubmittedAtKey)
    ensures forall row :: row in rows <==> OwnRow(s, email, row)
    ensures multiset(rows) == multiset(Join(s.applications, s.briefs, PickForEmail(email)))
  {
    var joined := Join(s.applications, s.briefs, PickForEmail(email));
    var rows := SortDesc(joined, UserSubmittedAtKey);
    forall row ensures row in rows <==> OwnRow(s, email, row) {
      assert row in rows <==> row in multiset(rows);
      assert row in joined <==> row in multiset(joined);
    }
    rows
  }

  /** `GET /user/applications`: the bearer token is checked inline (not by
      the admin gate), then the applications carrying the token's email are
      listed with their brief's title, location and tier, newest first. */
  function UserApplications(s: Store, header: Option<string>, verify: string -> Option<Claims>): (r: Reply)
    ensures BearerToken(header).None? ==> r == Reply(401, Failure(NoTokenProvided))
    ensures BearerToken(header).Some? && verify(BearerToken(header).value).None? ==>
      r == Reply(401, Failure(InvalidToken))
    ensures r.status == 200 <==> BearerToken(header).Some? && verify(BearerToken(header).value).Some?
    ensures r.status == 200 ==>
      && r.body.UserApplicationList?
      && SortedDesc(r.body.userApplications, UserSubmittedAtKey)
      && (forall row :: row in r.body.userApplications <==>
            OwnRow(s, ClaimedEmail(verify(BearerToken(header).value).value), row))
      && multiset(r.body.userApplications) ==
           multiset(Join(s.applications, s.briefs, PickForEmail(ClaimedEmail(verify(BearerToken(header).value).value))))
  {
    match BearerToken(header)
    case None => Reply(401, Failure(NoTokenProvided))
    case Some(t) =>
      match verify(t)
      case None => Reply(401, Failure(InvalidToken))
      case Some(claims) => Reply(200, UserApplicationList(RowsForEmail(s, ClaimedEmail(claims))))
  }

  /** In a consistent store the listing for an email has one row per
      application carrying that email: none is missing and none repeats. */
  lemma UserListingCountsOwnApplications(s: Store, email: string)
    requires Valid(s)
    ensures |RowsForEmail(s, Some(email))| == CountWhere(s.applications, (a: Application) => a.email == email)
  {
    var pick := PickForEmail(Some(email));
    assert forall i, j :: 0 <= i < j < |s.briefs| ==> s.briefs[i].id != s.briefs[j].id;
    JoinOneRowPerApplication(s.applications, s.briefs, pick);
    forall i | 0 <= i < |s.applications|
      ensures Joined(s.applications[i], s.briefs, pick) == (s.applications[i].email == email)
    {
      var j :| 0 <= j < |s.briefs| && s.briefs[j].id == s.applications[i].briefId;
    }
    CountWhereSame(s.applications, (a: Application) => Joined(a, s.briefs, pick), (a: Application) => a.email == email);
    assert |multiset(RowsForEmail(s, Some(email)))| == |multiset(Join(s.applications, s.briefs, pick))|;
  }

  /** An admin token reaches the user listing but lists nothing. */
  lemma AdminTokenListsNothing(s: Store, header: Option<string>, verify: string -> Option<Claims>)
    requires BearerToken(header).Some? && verify(BearerToken(header).value).Some?
    requires verify(BearerToken(header).value).value.AdminClaims?
    ensures UserApplications(s, header, verify) == Reply(200, UserApplicationList([]))
  {
    var rows := UserApplications(s, header, verify).body.userApplications;
    assert forall i :: 0 <= i < |rows| ==> rows[i] in rows;
  }

  /** The token a user login hands out lists exactly the applications with
      that email, and, in a consistent store, at least one. */
  lemma LoginTokenListsOwnApplications(s: Store, email: string, header: string, verify: string -> Option<Claims>)
    requires Valid(s)
    requires UserLogin(s, Some(email)).status == 200
    requires BearerToken(Some(header)).Some?
    requires verify(BearerToken(Some(header)).value) == Some(UserLogin(s, Some(email)).body.token)
    ensures var r := UserApplications(s, Some(header), verify);
      && r.status == 200
      && |r.body.userApplications| > 0
      && forall row :: row in r.body.userApplications ==> row.application.email == email
  {
    var r := UserApplications(s, Some(header), verify);
    var i :| 0 <= i < |s.applications| && s.applications[i].email == email;
    var a := s.applications[i];
    var j :| 0 <= j < |s.briefs| && s.briefs[j].id == a.briefId;
    var row := UserApplicationRow(a, s.briefs[j].title, s.briefs[j].location, s.briefs[j].tier);
    assert OwnPair(Some(email), s.applications[i], s.briefs[j], row);
    assert row in r.body.userApplications;
    forall row' | row' in r.body.userApplications ensures row'.application.email == email {
      assert OwnRow(s, Some(email), row');
    }
  }
}

=== FILE: values.dfy ===
/** Values that cross the boundary between request bodies, the forms API and
    the SQLite tables: optional (nullable) columns, JSON field values with
    JavaScript truthiness, and the decimal text SQLite stores for a number
    bound to a TEXT column. */
module Values {

  /** A nullable column or an optional request field: `None` is SQL NULL or
      JavaScript `undefined`. */
  datatype Option<+T> = None | Some(value: T)

  /** A JSON scalar as it can appear in a submission's field bag. Numbers are
      modelled as integers; objects and arrays are not modelled. */
  datatype JsValue = Undefined | Null | Str(s: string) | Num(n: int) | Bool(b: bool)

  /** JavaScript truthiness: `undefined`, `null`, `""`, `0` and `false` are
      falsy, every other scalar is truthy. */
  predicate Truthy(v: JsValue) {
    match v
    case Undefined => false
    case Null => false
    case Str(s) => s != ""
    case Num(n) => n != 0
    case Bool(b) => b
  }

  /** A value the driver can bind to a TEXT column without binding NULL. */
  predicate Bindable(v: JsValue) {
    v.Str? || v.Num? || v.Bool?
  }

  function DigitChar(d: nat): (c: char)
    requires d < 10
    ensures '0' <= c <= '9'
  {
    ['0', '1', '2', '3', '4', '5', '6', '7', '8', '9'][d]
  }

  function DigitValue(c: char): nat
    requires '0' <= c <= '9'
  {
    (c as int - '0' as int) as nat
  }

  predicate AllDigits(t: string) {
    forall i :: 0 <= i < |t| ==> '0' <= t[i] <= '9'
  }

  /** The decimal numeral of a natural number, most significant digit first. */
  function NatText(n: nat): (t: string)
    ensures |t| >= 1 && AllDigits(t)
    ensures |t| > 1 ==> t[0] != '0'
    decreases n
  {
    if n < 10 then [DigitChar(n)] else NatText(n / 10) + [DigitChar(n % 10)]
  }

  /** The number a string of decimal digits denotes. */
  function DigitsValue(t: string): nat
    requires AllDigits(t)
    decreases |t|
  {
    if |t| == 0 then 0 else 10 * DigitsValue(t[..|t| - 1]) + DigitValue(t[|t| - 1])
  }

  lemma {:induction false} DigitRoundTrip(d: nat)
    requires d < 10
    ensures DigitValue(DigitChar(d)) == d
  {
    var digits := ['0', '1', '2', '3', '4', '5', '6', '7', '8', '9'];
    assert DigitChar(d) == digits[d];
    assert digits[d] as int == '0' as int + d by {
      assert digits[0] as int == '0' as int;
    }
  }

  /** Reading back the numeral gives the number: the decimal text is faithful. */
  lemma {:induction false} NatTextRoundTrip(n: nat)
    ensures DigitsValue(NatText(n)) == n
    decreases n
  {
    if n < 10 {
      DigitRoundTrip(n);
      assert NatText(n)[..0] == [];
    } else {
      var t := NatText(n);
      NatTextRoundTrip(n / 10);
      DigitRoundTrip(n % 10);
      assert t[..|t| - 1] == NatText(n / 10);
      assert t[|t| - 1] == DigitChar(n % 10);
    }
  }

  /** The text SQLite renders for an integer: an optional minus sign, then the
      decimal digits. */
  function IntText(n: int): (t: string)
    ensures |t| >= 1
    ensures n < 0 <==> t[0] == '-'
    ensures n < 0 ==> t[1..] == NatText(-n)
  {
    if n < 0 then "-" + NatText(-n) else NatText(n)
  }

  /** The node driver binds a number as an INTEGER only when it equals its
      own 32-bit conversion; any other number is bound as a REAL. */
  predicate IsInt32(n: int) {
    -0x8000_0000 <= n < 0x8000_0000
  }

  /** Below this magnitude SQLite writes an integral REAL in fixed notation
      (`%!.15g` keeps at most fifteen significant digits). */
  const FixedRealLimit: int := 1_000_000_000_000_000

  /** The text SQLite keeps when v is bound to a TEXT column. Strings are kept
      as they are and booleans are bound as 1/0. A 32-bit integer is bound as
      an INTEGER and TEXT affinity turns it into its decimal text; a wider one
      is bound as a REAL, whose text carries a trailing `.0`. */
  function ColumnText(v: JsValue): (t: string)
    requires Bindable(v)
    ensures v.Str? ==> t == v.s
    ensures v.Num? ==> |t| >= 1 && (v.n < 0 <==> t[0] == '-')
    ensures v.Num? ==> ('.' in t <==> !IsInt32(v.n))
    ensures v.Num? && IsInt32(v.n) && v.n >= 0 ==> AllDigits(t) && DigitsValue(t) == v.n
    ensures v.Num? && IsInt32(v.n) && v.n < 0 ==> AllDigits(t[1..]) && DigitsValue(t[1..]) == -v.n
    ensures v.Num? && !IsInt32(v.n) && 0 <= v.n < FixedRealLimit ==>
      |t| > 2 && t[|t| - 2..] == ".0" && AllDigits(t[..|t| - 2]) && DigitsValue(t[..|t| - 2]) == v.n
    ensures v.Num? && !IsInt32(v.n) && -FixedRealLimit < v.n < 0 ==>
      |t| > 3 && t[|t| - 2..] == ".0" && AllDigits(t[1..|t| - 2]) && DigitsValue(t[1..|t| - 2]) == -v.n
    ensures v.Bool? ==> t == (if v.b then "1" else "0")
  {
    match v
    case Str(s) => s
    case Num(n) =>
      NumberTextShape(n);
      if n >= 0 then NumberTextDigits(n); NumberText(n) else NegativeNumberTextDigits(n); NumberText(n)
    case Bool(b) => if b then "1" else "0"
  }

  /** The integer's text, followed by `.0` when it is bound as a REAL. */
  function NumberText(n: int): (t: string)
    ensures IsInt32(n) ==> t == IntText(n)
    ensures !IsInt32(n) ==> |t| == |IntText(n)| + 2 && t[..|t| - 2] == IntText(n) && t[|t| - 2..] == ".0"
  {
    if IsInt32(n) then IntText(n) else IntText(n) + ".0"
  }

  /** A number's text is non-empty, starts with a minus exactly when the
      number is negative, and has a point exactly when it is bound as a REAL. */
  lemma NumberTextShape(n: int)
    ensures var t := NumberText(n);
      |t| >= 1 && (n < 0 <==> t[0] == '-') && ('.' in t <==> !IsInt32(n))
  {
    NoPointInIntText(n);
    if n >= 0 {
      NatTextRoundTrip(n);
    } else {
      NatTextRoundTrip(-n);
    }
  }

  /** The digits of a non-negative number's text read back as the number. */
  lemma NumberTextDigits(n: int)
    requires n >= 0
    ensures var t := NumberText(n);
      && (IsInt32(n) ==> AllDigits(t) && DigitsValue(t) == n)
      && (!IsInt32(n) ==> |t| > 2 && AllDigits(t[..|t| - 2]) && DigitsValue(t[..|t| - 2]) == n)
  {
    NatTextRoundTrip(n);
  }

  /** After the minus, the digits of a negative number's text read back as
      its magnitude. */
  lemma NegativeNumberTextDigits(n: int)
    requires n < 0
    ensures var t := NumberText(n);
      && (IsInt32(n) ==> AllDigits(t[1..]) && DigitsValue(t[1..]) == -n)
      && (!IsInt32(n) ==> |t| > 3 && AllDigits(t[1..|t| - 2]) && DigitsValue(t[1..|t| - 2]) == -n)
  {
    NatTextRoundTrip(-n);
    var t := NumberText(n);
    if !IsInt32(n) {
      assert t[1..|t| - 2] == IntText(n)[1..];
    }
  }

  lemma NoPointInIntText(n: int)
    ensures '.' !in IntText(n)
  {
    var t := IntText(n);
    if n < 0 {
      assert forall i :: 1 <= i < |t| ==> t[i] == NatText(-n)[i - 1];
    }
  }

  /** At the 32-bit boundary the stored text changes form: 2147483647 is
      kept as its digits, 2147483648 as the digits of a REAL. */
  lemma Int32Boundary()
    ensures ColumnText(Num(0x7fff_ffff)) == IntText(0x7fff_ffff)
    ensures ColumnText(Num(0x8000_0000)) == IntText(0x8000_0000) + ".0"
    ensures ColumnText(Num(-0x8000_0000)) == IntText(-0x8000_0000)
    ensures ColumnText(Num(-0x8000_0001)) == IntText(-0x8000_0001) + ".0"
  {
  }

  /** `undefined`, `null`, `""`, `0` and `false` are the falsy scalars. */
  lemma FalsyExactly(v: JsValue)
    ensures !Truthy(v) <==> v in [Undefined, Null, Str(""), Num(0), Bool(false)]
  {
  }
}

=== FILE: webhook.dfy ===
/** The forms provider's webhook. A `SUBMISSION_CREATED` event for a form that
    a brief is connected to becomes an application of that brief, through the
    same INSERT OR IGNORE as the import, so a submission the import already
    stored is not stored twice. The handler answers `{received: true}` at
    once; the insert happens afterwards and its failures are only logged. */
module Webhook {
  import opened Values
  import opened Fields
  import opened Tally
  import opened Schema
  import opened Replies
  import BriefRoutes

  const SubmissionCreated: string := "SUBMISSION_CREATED"

  /** The event's `data`: `formId` and `submissionId` (missing ones are
      `None`), `fields` with `|| {}` applied, `createdAt` and the JSON text of
      the whole object. */
  datatype WebhookData = WebhookData(
    formId: Option<string>,
    submissionId: Option<string>,
    fields: FieldBag,
    createdAt: Option<string>,
    raw: string)

  datatype WebhookEvent = WebhookEvent(eventType: Option<string>, data: Option<WebhookData>)

  /** `SELECT id FROM briefs WHERE tally_form_id = ?` through `db.get`: the
      first brief connected to the form; a missing form id matches nothing. */
  function FindBriefByForm(briefs: seq<Brief>, formId: Option<string>): (r: Option<Brief>)
    ensures r.Some? <==> formId.Some? && HasFormId(briefs, formId.value)
    ensures r.Some? ==> r.value in briefs && r.value.tallyFormId == formId.value
    decreases |briefs|
  {
    if formId.None? || |briefs| == 0 then None
    else if briefs[0].tallyFormId == formId.value then Some(briefs[0])
    else
      assert forall i :: 1 <= i < |briefs| ==> briefs[1..][i - 1] == briefs[i];
      FindBriefByForm(briefs[1..], formId)
  }

  /** `data.createdAt || new Date().toISOString()`: a missing or empty
      timestamp is replaced by the time of receipt. */
  function ReceivedAt(createdAt: Option<string>, now: string): (t: string)
    ensures createdAt.Some? && createdAt.value != "" ==> t == createdAt.value
    ensures createdAt.None? || createdAt.value == "" ==> t == now
  {
    if createdAt.Some? && createdAt.value != "" then createdAt.value else now
  }

  /** The columns the webhook binds: the webhook's alias lists (shorter than
      the import's), and always a timestamp. */
  function WebhookRow(briefId: nat, d: WebhookData, now: string): (row: NewApplication)
    ensures row.briefId == briefId && row.submissionId == d.submissionId
    ensures row.submittedAt == Some(ReceivedAt(d.createdAt, now)) && row.rawTallyData == d.raw
    ensures Resolves(d.fields, WebhookEmail, row.email) && Resolves(d.fields, WebhookInstagram, row.instagram)
    ensures Resolves(d.fields, WebhookPortfolio, row.portfolio) && Resolves(d.fields, WebhookProposal, row.contentProposal)
  {
    var x := ExtractForWebhook(d.fields);
    NewApplication(briefId, d.submissionId, x.email, x.instagram, x.portfolio, x.proposal,
                   Some(ReceivedAt(d.createdAt, now)), d.raw)
  }

  /** The event carries a submission for a form some brief is connected to. */
  predicate Actionable(s: Store, e: WebhookEvent) {
    e.eventType == Some(SubmissionCreated) && e.data.Some? && FindBriefByForm(s.briefs, e.data.value.formId).Some?
  }

  /** `POST /api/webhook/tally`. The reply is `None` when the handler sends
      none: a `SUBMISSION_CREATED` event without `data` makes the
      destructuring throw inside the async handler before any reply, and the
      rejection goes unhandled (which ends the process on Node 15 and later;
      the process is not modelled). */
  function HandleWebhook(s: Store, e: WebhookEvent, now: string): (r: (Store, Option<Reply>))
    ensures e.eventType == Some(SubmissionCreated) && e.data.None? ==> r == (s, None)
    ensures e.data.Some? || e.eventType != Some(SubmissionCreated) ==> r.1 == Some(Reply(200, Received))
    ensures !Actionable(s, e) ==> r.0 == s
    ensures r.0.admins == s.admins && r.0.briefs == s.briefs && r.0.briefSeq == s.briefSeq
    ensures Actionable(s, e) ==>
      var d := e.data.value;
      var b := FindBriefByForm(s.briefs, d.formId).value;
      r.0 == InsertApplicationOrIgnore(s, WebhookRow(b.id, d, now))
  {
    if e.eventType != Some(SubmissionCreated) then (s, Some(Reply(200, Received)))
    else if e.data.None? then (s, None)
    else
      var d := e.data.value;
      match FindBriefByForm(s.briefs, d.formId)
      case None => (s, Some(Reply(200, Received)))
      case Some(b) => (InsertApplicationOrIgnore(s, WebhookRow(b.id, d, now)), Some(Reply(200, Received)))
  }

  /** An actionable event with a new submission id appends exactly one row,
      of the form's brief, carrying the event's submission id and status
      'submitted'; the rest of the store is as it was. */
  lemma NewSubmissionAppendsOneRow(s: Store, e: WebhookEvent, now: string)
    requires Actionable(s, e)
    requires e.data.value.submissionId.Some?
    requires !HasSubmission(s.applications, e.data.value.submissionId.value)
    ensures var s' := HandleWebhook(s, e, now).0;
      && |s'.applications| == |s.applications| + 1
      && s'.applications[..|s.applications|] == s.applications
      && var a := s'.applications[|s.applications|];
      && a.submissionId == e.data.value.submissionId.value
      && a.status == Some(SubmittedStatus)
      && HasFormId(s.briefs, e.data.value.formId.value)
      && exists j :: 0 <= j < |s.briefs| && s.briefs[j].id == a.briefId && s.briefs[j].tallyFormId == e.data.value.formId.value
  {
    var s' := HandleWebhook(s, e, now).0;
    var b := FindBriefByForm(s.briefs, e.data.value.formId).value;
    assert s'.applications == s.applications + [RowOf(WebhookRow(b.id, e.data.value, now), s.applicationSeq + 1, e.data.value.submissionId.value)];
    assert s'.applications[..|s.applications|] == s.applications;
    var j :| 0 <= j < |s.briefs| && s.briefs[j] == b;
  }

  /** Delivering an event twice leaves the tables as one delivery does, even
      when the second delivery arrives at another time; a second actionable
      delivery only advances the applications counter. */
  lemma RedeliveryIsIgnored(s: Store, e: WebhookEvent, now: string, later: string)
    ensures var s1 := HandleWebhook(s, e, now).0;
      HandleWebhook(s1, e, later).0 == (if Actionable(s, e) then Skipped(s1) else s1)
  {
    var s1 := HandleWebhook(s, e, now).0;
    if Actionable(s, e) {
      var d := e.data.value;
      var b := FindBriefByForm(s.briefs, d.formId).value;
      assert FindBriefByForm(s1.briefs, d.formId) == Some(b);
      if d.submissionId.Some? {
        StoredSubmissionIgnored(s, WebhookRow(b.id, d, now), WebhookRow(b.id, d, later));
      }
    }
  }

  /** A submission already on file, however it got there, is ignored: no
      table changes, and only an actionable event advances the counter. */
  lemma StoredSubmissionNotRepeated(s: Store, e: WebhookEvent, now: string)
    requires e.data.Some? && e.data.value.submissionId.Some?
    requires HasSubmission(s.applications, e.data.value.submissionId.value)
    ensures HandleWebhook(s, e, now).0 == (if Actionable(s, e) then Skipped(s) else s)
  {
  }

  /** A submission imported when its brief was created is not stored again
      when its webhook arrives afterwards. */
  lemma ImportThenWebhookAddsNothing(s: Store, f: BriefFields, created: string, subs: seq<Submission>,
                                     k: int, e: WebhookEvent, now: string)
    requires BriefRoutes.CreateBrief(s, f, created, Fetched(Some(subs))).1.status == 200
    requires 0 <= k < |subs| && subs[k].id.Some?
    requires e.data.Some? && e.data.value.submissionId == subs[k].id
    ensures var s1 := BriefRoutes.CreateBrief(s, f, created, Fetched(Some(subs))).0;
      HandleWebhook(s1, e, now).0 == (if Actionable(s1, e) then Skipped(s1) else s1)
  {
    BriefRoutes.CreateBriefImportsSubmissions(s, f, created, subs);
    var s1 := BriefRoutes.CreateBrief(s, f, created, Fetched(Some(subs))).0;
    StoredSubmissionNotRepeated(s1, e, now);
  }

  lemma WebhookValid(s: Store, e: WebhookEvent, now: string)
    requires Valid(s)
    ensures Valid(HandleWebhook(s, e, now).0)
  {
    if Actionable(s, e) {
      var d := e.data.value;
      var b := FindBriefByForm(s.briefs, d.formId).value;
      var j :| 0 <= j < |s.briefs| && s.briefs[j] == b;
      InsertApplicationValid(s, WebhookRow(b.id, d, now));
    }
  }

  /** After an actionable delivery with a submission id, exactly one row of a
      consistent store carries that id. */
  lemma DeliveredSubmissionStoredOnce(s: Store, e: WebhookEvent, now: string)
    requires Valid(s) && Actionable(s, e) && e.data.value.submissionId.Some?
    ensures CountSubmission(HandleWebhook(s, e, now).0.applications, e.data.value.submissionId.value) == 1
  {
    var s' := HandleWebhook(s, e, now).0;
    WebhookValid(s, e, now);
    StoredSubmissionCountedOnce(s'.applications, s'.applicationSeq, e.data.value.submissionId.value);
  }
}
